=== FILE: README.md ===
# Cubic congestion controller (mvfst), modelled in Dafny

This project models the `Cubic` congestion controller of the mvfst QUIC
transport as its unit tests (`quic/congestion_control/test/CubicTest.cpp`)
pin it down. The controller is a sequential state machine over one record:
the congestion window, bytes in flight, ssthresh, the state (Hystart, Steady,
FastRecovery), the end of the current recovery period, the cubic origin
(Wmax, the reduction time, K), the app-idle start and a one-shot pacer
timestamp. It has these entry points:

- `onPacketSent`;
- `onPacketAckOrLoss`, whose loss may carry the persistent-congestion flag
  of section 7.6.2 of RFC 9002;
- `setAppIdle`;
- the pacing queries `getPacingRate`, `getPacingInterval`, `canBePaced` and
  `markPacerTimeoutScheduled`.

Steady-state growth follows the window function of section 4.1 of RFC 8312,
W(t) = C (t - K)^3 + Wmax with C = 0.4.

Every value is an unbounded natural number. The 64-bit limits of the window
and the in-flight counter are checked explicitly, against `MaxU64`. Other
64-bit intermediates are not wrapped; see `CubicGrowth.TimeToOrigin` under
"Left out". Times are
microseconds and are always passed in; the cubic clock counts whole
milliseconds. Telemetry is modelled as a log of events appended to the
controller. Each congestion-metric event carries a tag, the bytes in flight,
the window and the state; each app-idle event carries the idle flag.

Files (one module each):

- `cubic_types.dfy` (`CubicTypes`): configuration, the controller record and
  its invariant `Valid`, packets, ACK and loss events, log events, and the
  writable-bytes query.
- `cubic_growth.dfy` (`CubicGrowth`): the integer cube root, K, the cubic
  delta and the target window, with their monotonicity laws.
- `cubic_controller.dfy` (`CubicController`): sending, loss, persistent
  congestion, the per-state ACK handlers and `setAppIdle`.
- `cubic_pacing.dfy` (`CubicPacing`): pacing gain, burst size, interval,
  spread mode and late-timer compensation.
- `cubic_run.dfy` (`CubicRun`): all entry points as one step function, and
  the laws that hold over any sequence of calls.
- `cubic_scenarios.dfy` (`CubicScenarios`): each test replayed with its
  concrete numbers.

Constants. Some follow from values the tests assert. The persistent-congestion
log holds 11088 and 2464 (CubicTest.cpp:84-85). That fixes:

- packet size 1232 bytes by default;
- initial window 10 packets and minimum window 2 packets;
- a loss factor of 0.9 at the default number of emulated connections
  (11088 is 90% of 12320).

The others are assumed library defaults that no test pins down:

- the factor family (N - 1 + 0.8) / N for N emulated connections, with a
  default of N = 2. The tests alone do not force it: a default N = 1 with a
  factor of 0.9 would meet every assertion too. It is chosen because it
  matches 0.9 at N = 2 and because of two comments. "Easier to argue
  reduction this way" (CubicTest.cpp:132) suggests that N = 1 is not the
  default. "Cwnd >= 2400" after a loss from 3000 (CubicTest.cpp:162) reads
  as a factor of 0.8 at N = 1;

- initial ssthresh 2^64 - 1 (the persistent-congestion test passes it
  explicitly as the second constructor argument, CubicTest.cpp:48; the
  third argument there, `false`, is taken to switch off the TCP-friendly
  estimate, see "Left out");
- maximum burst 10 packets and write limit 5 packets (CubicTest.cpp:320 and
  339 compare against these settings by name, not by value);
- minimal pacing interval 1 ms (the pacing tests set it themselves; the
  unpaceable test only needs it above 1 us).

Pacing gain is 2 in Hystart, 1.25 in FastRecovery and 1 in Steady.

Under that assumption, with N emulated connections a loss multiplies the
window by (N - 1 + 0.8) / N. The model takes that factor as the exact ratio (5N - 1) / (5N) and truncates
the product to whole bytes. The default N = 2 gives 0.9, so 12320 becomes
11088; N = 1 gives 0.8, so 3000 becomes 2400.

The implementation files `Cubic.cpp`, `Cubic.h` and `TestingCubic.h` are not
part of this model. The behaviour modelled is the one the tests assert. Two
choices rest on the tests alone:

- Persistent congestion sets ssthresh to half the window held before the
  loss. Section 7.6.2 of RFC 9002 fixes only the window after persistent
  congestion (the minimum window), not ssthresh. The test's comment says
  initCwnd / 2 (CubicTest.cpp:63), and the test needs an ACK of half the
  initial window to reach Steady from 2464 (8624 >= 6160). An unchanged
  ssthresh of 11088 would keep the controller in Hystart.
- A Hystart ACK grows the window by exactly the acked bytes, not scaled by
  the emulated connections (CubicTest.cpp:38-41). Sending 100 and acking 50
  brings the writable budget back to exactly the initial window. Given the
  assumed default of two connections, growth scaled by N would overshoot
  it. With a default of one connection the test could not tell the two
  readings apart.

## Model

| member | source | states |
|---|---|---|
| CubicTypes.WritableBytes | quic/congestion_control/test/CubicTest.cpp:22-28 | The writable budget is the window minus the bytes in flight, and 0 when the flight fills or exceeds the window. |
| CubicTypes.NewCubic | quic/congestion_control/test/CubicTest.cpp:45-49 | A new controller is in Hystart with nothing in flight and an empty log. Its window is the initial window, or the minimum window if that is larger. ssthresh is the configured initial value, and the controller invariant holds. |
| CubicTypes.AddLostPacket | quic/congestion_control/test/CubicTest.cpp:53-54 | Adding a lost packet to a loss event adds exactly its size to the lost bytes and changes nothing else. |
| CubicTypes.SetConnectionEmulation | quic/congestion_control/test/CubicTest.cpp:131-132 | Sets the number of emulated connections, changes nothing else, and keeps the invariant. |
| CubicTypes.SetMinimalPacingInterval | quic/congestion_control/test/CubicTest.cpp:247 | Sets the minimal pacing interval, changes nothing else, and keeps the invariant. |
| CubicTypes.LogMetric | quic/congestion_control/test/CubicTest.cpp:114-121 | Appends one event carrying the current bytes in flight, window and state, and changes nothing else. |
| CubicGrowth.CbrtSearch | quic/congestion_control/test/CubicTest.cpp:196-198 | The binary search returns the k inside its range with k^3 <= n < (k+1)^3. |
| CubicGrowth.ICbrt | quic/congestion_control/test/CubicTest.cpp:196-198 | The integer cube root k satisfies k^3 <= n < (k+1)^3. |
| CubicGrowth.CbrtUnique | quic/congestion_control/test/CubicTest.cpp:196-198 | That bracket determines the cube root uniquely. |
| CubicGrowth.TimeToOrigin | quic/congestion_control/test/CubicTest.cpp:196-198 | K in whole milliseconds is the integer cube root of (bytesToOrigin * 10^6 / mss) * 2500. |
| CubicGrowth.CubicDelta | quic/congestion_control/test/CubicTest.cpp:226-228 | The delta is floor(mss * 0.4 * (t - K)^3 / 10^9): the greatest d with d * 10^10 <= 4 * mss * (t - K)^3. It is 0 at K. |
| CubicGrowth.DeltaMonotone | quic/congestion_control/test/CubicTest.cpp:226-229 | The cubic delta never decreases as elapsed time grows. |
| CubicGrowth.DeltaSign | quic/congestion_control/test/CubicTest.cpp:226-229 | The delta is 0 at K, negative before K, and non-negative from K on. |
| CubicGrowth.DeltaAtOrigin | quic/congestion_control/test/CubicTest.cpp:196-198 | At elapsed time 0 the curve is no lower than Wmax minus the bytes to origin, so K places the reduced window on the curve. |
| CubicGrowth.TargetMonotone | quic/congestion_control/test/CubicTest.cpp:226-229 | A larger delta never gives a smaller target window, clamps included. |
| CubicGrowth.CubicTarget | quic/congestion_control/test/CubicTest.cpp:226-229 | The target stays between the minimum window and 2^64 - 1, and equals Wmax + delta whenever that lies in range. |
| CubicController.OnPacketSent | quic/congestion_control/test/CubicTest.cpp:22-28 | The send succeeds exactly when the 64-bit flight counter does not overflow. It lowers the writable budget by the packet size, floored at 0, and keeps the invariant. |
| CubicController.ReducedCwnd | quic/congestion_control/test/CubicTest.cpp:159-163 | The reduced window lies between the minimum window and the old window, and is at least 80% of the old window. It is the minimum window or the floor of cwnd * (5N - 1) / (5N). |
| CubicController.RemoveInflightBytes | quic/congestion_control/test/CubicTest.cpp:38-41 | The removed bytes leave flight, nothing else changes, and the invariant is kept. |
| CubicController.CubicReduction | quic/congestion_control/test/CubicTest.cpp:154-163 | A loss enters FastRecovery at the reduced window with ssthresh equal to it. It records the old window as Wmax, the loss time as the reduction time and largestSent as the end of recovery. |
| CubicController.PersistentCongestionReset | quic/congestion_control/test/CubicTest.cpp:55-73 | Persistent congestion returns to Hystart at the minimum window, with ssthresh half the pre-loss window. It forgets Wmax and the reduction time. |
| CubicController.OnPacketLoss | quic/congestion_control/test/CubicTest.cpp:51-85 | The loss succeeds exactly when the lost bytes are in flight, and the invariant holds. An ordinary loss enters FastRecovery at exactly the reduced window (80-100% of the old one), with ssthresh equal to it, the end of recovery armed, Wmax the old window and the reduction time the loss time. A persistent one resets to Hystart at the minimum window. |
| CubicController.LossLog | quic/congestion_control/test/CubicTest.cpp:80-102 | A loss appends RemoveInflight, CubicLoss and, if persistent, PersistentCongestion, in that order, each carrying the new bytes in flight; the earlier log is untouched. |
| CubicController.AckInHystart | quic/congestion_control/test/CubicTest.cpp:126-142 | A Hystart ACK grows the window by the acked bytes, and fails on 64-bit overflow. It moves to Steady exactly when the window reaches ssthresh. In that case ssthresh becomes the window and the cubic origin is cleared. |
| CubicController.UpdateTimeToOrigin | quic/congestion_control/test/CubicTest.cpp:196-198 | Makes Wmax the origin point. K is 0 when the window has reached Wmax, and otherwise the cube root of the scaled distance. |
| CubicController.CubicCwndMonotone | quic/congestion_control/test/CubicTest.cpp:200-224 | Past the reduction time, a later ACK never gets a smaller cubic window. |
| CubicController.AckInSteady | quic/congestion_control/test/CubicTest.cpp:200-229 | A Steady ACK never shrinks the window. While the application is idle it changes nothing. Otherwise the window becomes the larger of the current window and the cubic window W(t) for the ACK time, taken on the refreshed origin. When the origin was already complete, Wmax, the reduction time and K stay as they were. |
| CubicController.SteadyOrigin | quic/congestion_control/test/CubicTest.cpp:70-78 | After the refresh the cubic origin is complete. A missing Wmax becomes the current window with K = 0, and a missing reduction time becomes the ACK time. K is recomputed when Wmax moved. A complete origin is left alone, and the window, flight and idle state never change. |
| CubicController.SteadyFreshStart | quic/congestion_control/test/CubicTest.cpp:70-78 | The first Steady ACK with no Wmax and no reduction time sets Wmax to the window and the reduction time to the ACK time, logs ResetTimeToOrigin, ResetLastReductionTime and CubicSteadyCwnd, and leaves the window where it was. |
| CubicController.SteadyAckLog | quic/congestion_control/test/CubicTest.cpp:104-121 | A Steady ACK only appends metric events carrying the bytes in flight, and none of them is CwndNoChange. |
| CubicController.AckInRecovery | quic/congestion_control/test/CubicTest.cpp:164-178 | FastRecovery turns into Steady exactly on an ACK above the end of recovery. Until then nothing changes, and the window never shrinks. The ACK that ends recovery keeps Wmax and the reduction time and sets K to the cube root of the distance to Wmax (0 at Wmax). It puts the window on that curve at the ACK time. |
| CubicController.RecoveryExitNoShrink | quic/congestion_control/test/CubicTest.cpp:174-178 | The cubic window at recovery exit is at least the reduced window. |
| CubicController.AckByState | quic/congestion_control/test/CubicTest.cpp:126-178 | Each state's handler gives its transition exactly: Hystart to Steady at ssthresh; Steady stays Steady; FastRecovery to Steady above the end of recovery. The window never shrinks, and the invariant is kept. A Steady ACK that is not idle sets the window to the larger of the window and W(t) on the refreshed origin. The ACK that ends recovery puts the window on the cubic curve. |
| CubicController.AckByStateLog | quic/congestion_control/test/CubicTest.cpp:104-121 | The state handlers only append metric events carrying the bytes in flight, never CwndNoChange. |
| CubicController.OnPacketAcked | quic/congestion_control/test/CubicTest.cpp:30-42 | The ACK succeeds exactly when the acked bytes are in flight and no overflow occurs. The bytes leave flight, the window never shrinks, and the per-state transitions hold. |
| CubicController.AckedWindow | quic/congestion_control/test/CubicTest.cpp:200-229 | After an ACK in Steady, not idle and with the origin complete, the window is the larger of the old window and W(t). After the ACK that ends recovery, the window is W(t) on a curve that keeps the configuration, Wmax and the reduction time, with K the cube root of the distance to Wmax. |
| CubicController.CloseAck | quic/congestion_control/test/CubicTest.cpp:92-101 | An ACK closes with CongestionPacketAck, preceded by CwndNoChange exactly when the window equals the one before the ACK. Nothing but the log changes. |
| CubicController.AckLog | quic/congestion_control/test/CubicTest.cpp:104-121 | An ACK's log ends with CongestionPacketAck, preceded by CwndNoChange when the window did not move; when it moved, no CwndNoChange is logged. Every new event carries the bytes in flight and the earlier log is untouched. |
| CubicController.OnPacketAckOrLoss | quic/congestion_control/test/CubicTest.cpp:51-56 | Having neither an ACK nor a loss is an error. A loss is processed before the ACK. A loss that fails (more bytes than are in flight) fails the whole call with its error, and the ACK is not processed. The invariant holds. |
| CubicController.AckOrLossLog | quic/congestion_control/test/CubicTest.cpp:80-122 | An ACK-or-loss call keeps the earlier log and only appends congestion-metric events. |
| CubicController.SetAppIdle | quic/congestion_control/test/CubicTest.cpp:209-219 | Each call logs one app-idle event and sets the app-limited flag. Leaving idle moves the reduction time forward by the whole milliseconds spent idle. The window and state do not change. |
| CubicController.CubicCwndAt | quic/congestion_control/test/CubicTest.cpp:226-229 | The cubic window stays between the minimum window and 2^64 - 1. It passes through Wmax at elapsed time K, and an ACK older than the reduction time gets Wmax (both when Wmax lies in that range). |
| CubicController.IdleTimeExcluded | quic/congestion_control/test/CubicTest.cpp:217-229 | After an idle period, an ACK at t gets the cubic window that an ACK at t minus the idle time would have got. |
| CubicController.IdleAckWindow | quic/congestion_control/test/CubicTest.cpp:209-229 | In Steady, not idle, with the cubic origin in place: an ACK after an idle period from t1 to t2 succeeds and has the same window as the same ACK arriving the whole idle milliseconds earlier without the idle period. |
| CubicPacing.GainQuarters | quic/congestion_control/test/CubicTest.cpp:253-277 | The pacing gain is between 1 and 2. |
| CubicPacing.CeilDiv | quic/congestion_control/test/CubicTest.cpp:254 | Rounding up: the least r with r * d >= n. |
| CubicPacing.BurstPerInterval | quic/congestion_control/test/CubicTest.cpp:253-277 | The burst is ceil(cwndInMss * gain / (srtt / interval)), with srtt / interval the truncated count of whole intervals in one RTT. It is the least number of packets per interval whose bursts, one per whole interval, cover the window in whole packets times the gain. |
| CubicPacing.CanBePaced | quic/congestion_control/test/CubicTest.cpp:336 | With a positive minimal interval, pacing is possible exactly when one RTT holds at least one whole minimal interval. |
| CubicPacing.LateBurstCredit | quic/congestion_control/test/CubicTest.cpp:311-324 | There is no credit without a marked timer or when it is less than one interval late. A full interval late earns at least one burst. In general the credit is one burst per whole interval of lateness: credit * interval <= lateness * burst < (credit + burst) * interval. |
| CubicPacing.PacingInterval | quic/congestion_control/test/CubicTest.cpp:280-298 | The interval is 0 exactly when the controller cannot pace. Otherwise it is the minimal interval, or in spread mode the stretched interval whose bursts add up to the gained window. |
| CubicPacing.UncompensatedRate | quic/congestion_control/test/CubicTest.cpp:327-341 | Without pacing the rate is the write limit; otherwise it is the burst capped at the maximum burst. |
| CubicPacing.MarkPacerTimeoutScheduled | quic/congestion_control/test/CubicTest.cpp:314 | Records the timer time, changes nothing else, and keeps the invariant. |
| CubicPacing.GetPacingRate | quic/congestion_control/test/CubicTest.cpp:300-325 | The query consumes the recorded timer. The rate never goes below the uncompensated rate or above the maximum burst. A timer at least one interval late raises the rate when the cap leaves room. A paceable query returns exactly the burst per interval plus the late-timer credit (one burst per whole interval of lateness), capped at the maximum burst. |
| CubicPacing.CompensationOneShot | quic/congestion_control/test/CubicTest.cpp:322-324 | A second query without a fresh mark returns the uncompensated rate. |
| CubicPacing.LateTimerCompensation | quic/congestion_control/test/CubicTest.cpp:311-324 | A late query after a mark beats the uncompensated rate and stays within the cap. The next query is strictly lower. |
| CubicRun.Step | quic/congestion_control/test/CubicTest.cpp:44-78 | Every call in `Input` (sending, ACK or loss, setAppIdle, marking the pacer timeout, a pacing query) keeps the invariant and only appends to the log. Only setAppIdle appends an app-idle event, exactly one. The two setters, setConnectionEmulation and setMinimalPacingInterval, are not calls in `Input`; they are modelled on their own. |
| CubicRun.Run | quic/congestion_control/test/CubicTest.cpp:126-178 | Any sequence of calls keeps the invariant. The window never leaves the minimum window or the 64-bit range. |
| CubicRun.RunExtendsLog | quic/congestion_control/test/CubicTest.cpp:80-122 | A run's log extends the log it started from. |
| CubicRun.StepKeepsConfig | quic/congestion_control/test/CubicTest.cpp:209-219 | No call changes the configuration, and only setAppIdle changes the idle state. |
| CubicRun.RunAppLimited | quic/congestion_control/test/CubicTest.cpp:209-219 | After any run, isAppLimited is the flag of the run's last setAppIdle call, or the starting state when there was none. |
| CubicRun.IdleUpdatesOfMetrics | quic/congestion_control/test/CubicTest.cpp:231-240 | Appending only congestion-metric events adds no app-idle event. |
| CubicRun.RunIdleUpdates | quic/congestion_control/test/CubicTest.cpp:231-240 | Over any run, the app-idle events logged are the flags of its setAppIdle calls, in order. |
| CubicScenarios.HystartSendAckWritable | quic/congestion_control/test/CubicTest.cpp:30-42 | In Hystart, sending n bytes and acking m of them moves the writable budget by 2m - n. |
| CubicScenarios.SentReduceWritable | quic/congestion_control/test/CubicTest.cpp:22-28 | Sending 100 bytes lowers a new controller's writable budget by 100. |
| CubicScenarios.AckIncreaseWritable | quic/congestion_control/test/CubicTest.cpp:30-42 | Sending 100 and acking 50 restores the initial writable budget. |
| CubicScenarios.PersistentCongestionScenario | quic/congestion_control/test/CubicTest.cpp:44-124 | Replays the persistent-congestion test: Hystart at 2464, Steady after acking 6160, and the first Steady ACK leaves the writable budget unchanged. The log holds the nine events with the tags, windows (12320, 11088, 2464, then the final window), states and zero bytes in flight that the test expects. |
| CubicScenarios.PcLoss | quic/congestion_control/test/CubicTest.cpp:51-68 | The persistent-congestion loss leaves Hystart at 2464 with ssthresh 6160, nothing in flight, and the three loss events in the log. |
| CubicScenarios.PcRebuild | quic/congestion_control/test/CubicTest.cpp:63-68 | Acking 6160 bytes from 2464 reaches Steady at 8624 and logs one CongestionPacketAck. |
| CubicScenarios.PcSteady | quic/congestion_control/test/CubicTest.cpp:75-78 | The first Steady ACK keeps the window at 8624 and logs the five events the test expects after the first ACK. |
| CubicScenarios.CwndIncreaseAfterReduction | quic/congestion_control/test/CubicTest.cpp:126-158 | Writable 3000 in Steady after one ACK, then 0 with the window full, then at least 1000 after one ACK. |
| CubicScenarios.CwndIncreaseAfterReductionRecovery | quic/congestion_control/test/CubicTest.cpp:159-178 | After the loss, writable is at least 1400. After an ACK at the end of recovery it is at least 2400 in FastRecovery, and after an ACK past it at least 2400 in Steady. |
| CubicScenarios.OnePacketTimeToOrigin | quic/congestion_control/test/CubicTest.cpp:196-198 | K for one 1500-byte packet is 1357 ms. |
| CubicScenarios.AppIdle | quic/congestion_control/test/CubicTest.cpp:186-207 | The loss cuts 15000 to 13500. The ACK that ends recovery one second later gives Wmax plus the cubic delta at 1000 ms, 14972, which is above 13500. |
| CubicScenarios.AppIdleLoss | quic/congestion_control/test/CubicTest.cpp:189-195 | The loss cuts 15000 to 13500 and enters FastRecovery with Wmax 15000 and the reduction time at the loss. No idle event is logged. |
| CubicScenarios.AppIdleExit | quic/congestion_control/test/CubicTest.cpp:200-206 | The recovery-ending ACK one second after the loss gives Wmax + delta(1000 ms) = 14972 in Steady, with K = 1357 ms. |
| CubicScenarios.AppIdleDeltas | quic/congestion_control/test/CubicTest.cpp:226-228 | For K = 1357 ms the delta is -28 bytes at 1 s and +159 bytes at 2 s. |
| CubicScenarios.AppIdlePaused | quic/congestion_control/test/CubicTest.cpp:209-215 | While the application is idle, an ACK leaves the window unchanged and one app-idle event (true) is logged. |
| CubicScenarios.AppIdleResumed | quic/congestion_control/test/CubicTest.cpp:217-240 | After idle, the window grows and equals Wmax plus the delta at 2000 ms. The logged idle events are [true, false]. |
| CubicScenarios.AppIdleLastAck | quic/congestion_control/test/CubicTest.cpp:217-229 | Two cubic seconds after the reduction, the window is 15000 + 159. |
| CubicScenarios.SendAndAckGrows | quic/congestion_control/test/CubicTest.cpp:287-292 | In Hystart below ssthresh, one send-and-ack round grows the window by one packet. |
| CubicScenarios.PacingGainHystart | quic/congestion_control/test/CubicTest.cpp:243-256 | With an 11-packet window in Hystart the interval is 1 ms and the rate 8. |
| CubicScenarios.PacingGainRecovery | quic/congestion_control/test/CubicTest.cpp:258-267 | The loss gives 9 packets in FastRecovery, an interval of 1 ms and a rate of 4. |
| CubicScenarios.PacingGainTimeToOrigin | quic/congestion_control/test/CubicTest.cpp:269-277 | K for 1650 bytes at 1500 bytes per packet is 1401 ms. |
| CubicScenarios.PacingGainSteady | quic/congestion_control/test/CubicTest.cpp:269-277 | After recovery the window is 14850 in Steady, 9 whole packets, with an interval of 1 ms and a rate of 3, inside the test's 3 plus or minus 1. |
| CubicScenarios.PacingGainExitWindow | quic/congestion_control/test/CubicTest.cpp:269-274 | With Wmax 16500 and K = 1401 ms, the curve at the reduction time is 16500 - 1650 = 14850. |
| CubicScenarios.SteadyRate | quic/congestion_control/test/CubicTest.cpp:274-277 | A 14850-byte Steady window over a 3 ms RTT gives an interval of 1 ms and a rate of ceil(9 / 3) = 3. |
| CubicScenarios.PacingSpread | quic/congestion_control/test/CubicTest.cpp:280-298 | Five rounds give 15 packets. Over a 60 ms RTT in spread mode that is rate 1 and interval 2 ms. |
| CubicScenarios.SpreadRate | quic/congestion_control/test/CubicTest.cpp:294-297 | A 15-packet Hystart window over a 60 ms RTT in spread mode gives rate 1 and a 2 ms interval. |
| CubicScenarios.SpreadGrowth | quic/congestion_control/test/CubicTest.cpp:284-295 | Five Hystart rounds, each sending and acking one 1500-byte packet, succeed and grow the window from 10 packets to 15, still in Hystart. |
| CubicScenarios.LatePacingTimer | quic/congestion_control/test/CubicTest.cpp:300-325 | The uncompensated rate is 1. The marked late query gets the maximum burst, 10 packets by the assumed default. The very late query stays within 10, and the next query falls back to 1. |
| CubicScenarios.RttSmallerThanInterval | quic/congestion_control/test/CubicTest.cpp:327-341 | With a 1 us RTT the controller cannot pace, the interval is 0 and the rate is the write limit. |

## Left out

- The implementation files `Cubic.cpp`, `Cubic.h` and `TestingCubic.h` are not part of this model. The state machine is the one the tests assert.
- CubicGrowth.TimeToOrigin: the operand of the cube root is computed in unbounded integers. The source computes `(maxCwnd - cwnd) * 1000 * 1000 / udpSendPacketLen * 2500` in 64-bit unsigned arithmetic (CubicTest.cpp:196-198), which wraps once the bytes to origin reach about 1.8 * 10^13. The model gives a far larger K there. Example: 18446744073710 bytes with 1232-byte packets gives a source operand of 907500 (K of about 96 ms). Also, K is the integer cube root in whole milliseconds, not the double-precision `::cbrt` of CubicTest.cpp:196-198, and the cubic delta is an exact integer floor rather than `std::pow` on doubles. The window can then differ by a byte. The AppIdle test's 15159 (asserted at CubicTest.cpp:229) comes out the same, as does the 14972 that CubicTest.cpp:206 only needs to exceed 13500. In PacingGain the double K is 1401.02 ms, so the double formula gives 14849 where the model gives 14850. CubicTest.cpp:277 only asks for a rate within 1 of 3, and both windows give 3.
- CubicGrowth.DeltaAtOrigin: W(0) >= Wmax - bytesToOrigin holds for the integer K. With the double K the curve can start one byte lower (PacingGain: 16500 - 1651 = 14849 after a reduction to 14850).
- CubicController.RecoveryExitNoShrink: the exit window is at least the reduced window because K is an integer. With the source's double K it can be one byte below (14849 after a reduction to 14850).
- CubicController.AckInRecovery: its promise that the window never shrinks covers the recovery exit only for the integer K (see RecoveryExitNoShrink).
- CubicController.AckByState: the same one-byte caveat applies to "the window never shrinks" for an ACK that ends recovery.
- CubicController.OnPacketAcked: the same one-byte caveat applies to "the window never shrinks" for an ACK that ends recovery.
- CubicScenarios.PacingGainSteady: the window after recovery is 14850 in the model and 14849 with double arithmetic. Both are 9 whole packets and give the same rate.
- CubicPacing.BurstPerInterval: the number of intervals per RTT is the truncated quotient srtt / minimalPacingInterval, a whole-duration division, as the comment "11 * 2 / (3 / 1)" (CubicTest.cpp:254) reads it. An exact ratio would differ when the RTT is not a whole number of intervals: at 3.5 ms and a 1 ms interval, 22 gained packets give 8 here and 7 with the ratio.
- CubicController.ReducedCwnd: the factor (N - 1 + 0.8) / N is taken as the exact ratio (5N - 1) / (5N). A double-precision factor can truncate one byte lower when N = 3: at cwnd 3000 it gives 2799, the model 2800, and the first disagreement is at cwnd 15. The tests use N = 1 and N = 2, and their windows (2400 and 11088) come out the same either way.
- The TCP-friendly (Reno) window estimate is not modelled. The persistent-congestion test passes `false` as the third constructor argument (CubicTest.cpp:48), taken here to switch that estimate off. The other tests construct the controller with the defaults (CubicTest.cpp:24, 32, 186, 246, 303, 331). For them the model assumes the estimate never exceeds the cubic target, so the Steady window is the cubic one. The exact window asserted at CubicTest.cpp:229 is consistent with that assumption.
- Fast convergence of Wmax, Hystart's delay-based exit and any maximum-window clamp are not modelled. No test asserts a value that depends on them.
- CubicController.AckInHystart: an ACK in Hystart or FastRecovery ignores the app-idle flag. The tests only observe idle behaviour in Steady.
- CubicController.OnPacketLoss: every non-persistent loss reduces the window, including a loss inside an ongoing recovery period; the tests never report a second loss during recovery.
- The qlog machinery: event type names, the `recoveryState` string (always empty in the tests) and the logger's storage. Events are an appended sequence in the controller.
- `Clock::now()`: every time is a parameter, and srtt is a parameter of the pacing queries.
- The connection-state and transport-settings plumbing: packet size, window sizes in packets, maximum burst and write limit are fields of a fixed configuration.
- How losses and persistent congestion are detected: they arrive as inputs. The end of recovery is the transport's largest sent packet number, carried in the loss event.
- Packet metadata other than number, size and send time, and the test helpers that build packets and ACKs.

=== FILE: cubic_controller.dfy ===
/*******************************************************************************
 *  The Cubic window controller: in-flight accounting and the
 *  Hystart / Steady / FastRecovery state machine driven by packet-sent,
 *  ACK, loss and persistent-congestion events, plus the app-idle adjuster
 *  that keeps idle time out of the cubic clock.
 *******************************************************************************/

module CubicController {
  import opened CubicTypes
  import opened CubicGrowth

  /*** Sending ***/

  /** `onPacketSent`: the packet's bytes join the in-flight count; the 64-bit
      counter must not overflow. */
  function OnPacketSent(c: Controller, p: Packet): (r: Result<Controller>)
    ensures r.Ok? <==> c.inflight + p.size <= MaxU64
    ensures r.Ok? ==> r.value == c.(inflight := c.inflight + p.size)
    ensures r.Ok? ==> WritableBytes(r.value) == if p.size <= WritableBytes(c) then WritableBytes(c) - p.size else 0
    ensures r.Ok? && Valid(c) ==> Valid(r.value)
  {
    if MaxU64 - c.inflight < p.size then Err(InflightOverflow)
    else Ok(c.(inflight := c.inflight + p.size))
  }

  /*** Loss ***/

  /** The multiplicative decrease for N emulated connections: the factor
      (N - 1 + 0.8) / N taken as the exact ratio (5N - 1) / (5N), the product
      truncated to whole bytes and floored at the minimum window. One
      connection keeps 80% of the window, the default two keep 90%. */
  function ReducedCwnd(c: Controller): (w: nat)
    requires Valid(c)
    ensures MinCwnd(c) <= w <= c.cwnd
    ensures w >= 4 * c.cwnd / 5
    ensures w == MinCwnd(c) ||
            (w * (5 * c.emulatedConnections) <= c.cwnd * (5 * c.emulatedConnections - 1)
             < (w + 1) * (5 * c.emulatedConnections))
  {
    var n := c.emulatedConnections;
    var scaled := c.cwnd * (5 * n - 1) / (5 * n);
    ReductionBounds(c.cwnd, n);
    if scaled < MinCwnd(c) then MinCwnd(c) else scaled
  }

  lemma ReductionBounds(cwnd: nat, n: nat)
    requires n >= 1
    ensures cwnd * (5 * n - 1) / (5 * n) <= cwnd
    ensures cwnd * (5 * n - 1) / (5 * n) >= 4 * cwnd / 5
  {
    var d := 5 * n;
    var x := cwnd * (d - 1);
    MulLeft(cwnd, d - 1, d);
    assert x <= d * cwnd;
    DivUpperBound(cwnd, x, d);
    var a := 4 * cwnd / 5;
    assert 5 * a <= 4 * cwnd;
    MulLeft(d, 5 * a, 4 * cwnd);
    assert 4 * d <= 5 * (d - 1);
    MulLeft(cwnd, 4 * d, 5 * (d - 1));
    assert 5 * (d * a) <= 5 * x;
    DivLowerBound(a, x, d);
  }

  /** Removes lost or acked bytes from flight, as `onRemoveBytesFromInflight`. */
  function RemoveInflightBytes(c: Controller, bytes: nat): (r: Controller)
    requires bytes <= c.inflight
    ensures r.inflight + bytes == c.inflight
    ensures r == c.(inflight := r.inflight)
    ensures Valid(c) ==> Valid(r)
  {
    c.(inflight := c.inflight - bytes)
  }

  /** The ordinary loss reaction: remember the pre-loss window as Wmax and the
      loss time as the reduction time, cut the window, set ssthresh to it,
      arm the end of recovery and enter FastRecovery. */
  function CubicReduction(c: Controller, loss: LossEvent): (r: Controller)
    requires Valid(c)
    ensures Valid(r)
    ensures r.state == FastRecovery
    ensures r.cwnd == ReducedCwnd(c) && r.ssthresh == r.cwnd
    ensures r.lastMaxCwnd == Some(c.cwnd) && r.lastReductionTime == Some(loss.lossTime)
    ensures r.endOfRecovery == Some(loss.largestSent)
    ensures r.inflight == c.inflight && r.idleStart == c.idleStart && r.log == c.log
  {
    var w := ReducedCwnd(c);
    c.(lastMaxCwnd := Some(c.cwnd), lastReductionTime := Some(loss.lossTime),
       cwnd := w, ssthresh := w, endOfRecovery := Some(loss.largestSent),
       state := FastRecovery)
  }

  /** Persistent congestion (section 7.6.2 of RFC 9002): back to Hystart at the
      minimum window, with the cubic origin forgotten. `preLossCwnd` is the
      window held before this loss event; ssthresh restarts at half of it. */
  function PersistentCongestionReset(c: Controller, preLossCwnd: nat): (r: Controller)
    requires Valid(c)
    ensures Valid(r)
    ensures r.state == Hystart && r.cwnd == MinCwnd(c)
    ensures r.ssthresh == preLossCwnd / 2
    ensures r.lastMaxCwnd.None? && r.lastReductionTime.None?
    ensures r.inflight == c.inflight && r.log == c.log
  {
    c.(state := Hystart, cwnd := MinCwnd(c), ssthresh := preLossCwnd / 2,
       lastMaxCwnd := None, lastReductionTime := None)
  }

  /** Tags of the events a loss logs. */
  function LossTags(persistent: bool): seq<Tag>
  {
    [RemoveInflight, CubicLoss] + (if persistent then [PersistentCongestion] else [])
  }

  function TagsOf(events: seq<Event>): seq<Tag>
    requires forall i :: 0 <= i < |events| ==> events[i].Metric?
  {
    seq(|events|, i requires 0 <= i < |events| => events[i].tag)
  }

  /** `onPacketLoss`: the lost bytes leave flight (logged as RemoveInflight),
      the window is reduced and FastRecovery entered (logged as CubicLoss),
      and, strictly after that, a persistent-congestion loss resets the
      controller to Hystart at the minimum window (logged as
      PersistentCongestion). */
  function OnPacketLoss(c: Controller, loss: LossEvent): (r: Result<Controller>)
    requires Valid(c)
    ensures r.Ok? <==> loss.lostBytes <= c.inflight
    ensures r.Ok? ==> Valid(r.value)
    ensures r.Ok? ==> r.value.inflight + loss.lostBytes == c.inflight
    ensures r.Ok? && !loss.persistentCongestion ==>
              && r.value.state == FastRecovery
              && r.value.cwnd == ReducedCwnd(c)
              && r.value.lastReductionTime == Some(loss.lossTime)
              && r.value.cwnd <= c.cwnd
              && r.value.cwnd >= 4 * c.cwnd / 5
              && r.value.ssthresh == r.value.cwnd
              && r.value.endOfRecovery == Some(loss.largestSent)
              && r.value.lastMaxCwnd == Some(c.cwnd)
    ensures r.Ok? && loss.persistentCongestion ==>
              && r.value.state == Hystart
              && r.value.cwnd == MinCwnd(c)
              && r.value.ssthresh == c.cwnd / 2
              && r.value.lastMaxCwnd.None? && r.value.lastReductionTime.None?
  {
    if loss.lostBytes > c.inflight then Err(InflightUnderflow)
    else
      var c1 := LogMetric(RemoveInflightBytes(c, loss.lostBytes), RemoveInflight);
      assert ReducedCwnd(c1) == ReducedCwnd(c);
      var c2 := LogMetric(CubicReduction(c1, loss), CubicLoss);
      if loss.persistentCongestion then
        Ok(LogMetric(PersistentCongestionReset(c2, c.cwnd), PersistentCongestion))
      else Ok(c2)
  }

  /** What a loss logs: RemoveInflight, CubicLoss and, for persistent
      congestion, PersistentCongestion, appended in that order, each carrying
      the bytes still in flight. */
  lemma LossLog(c: Controller, loss: LossEvent)
    requires Valid(c) && OnPacketLoss(c, loss).Ok?
    ensures var r := OnPacketLoss(c, loss).value;
            && |r.log| == |c.log| + |LossTags(loss.persistentCongestion)|
            && r.log[..|c.log|] == c.log
            && (forall i :: |c.log| <= i < |r.log| ==> r.log[i].Metric? && r.log[i].bytesInFlight == r.inflight)
            && TagsOf(r.log[|c.log|..]) == LossTags(loss.persistentCongestion)
  {
    var r := OnPacketLoss(c, loss).value;
    var c1 := LogMetric(RemoveInflightBytes(c, loss.lostBytes), RemoveInflight);
    var c2 := LogMetric(CubicReduction(c1, loss), CubicLoss);
    assert c2.log == c.log + [Metric(RemoveInflight, r.inflight, c.cwnd, c.state),
                              Metric(CubicLoss, r.inflight, c2.cwnd, FastRecovery)];
  }

  /*** Acknowledgements ***/

  /** Hystart: the window grows by the acked bytes; once it reaches ssthresh the
      controller moves to Steady, ssthresh becomes the window and the cubic
      origin is cleared so Steady starts its curve afresh. */
  function AckInHystart(c: Controller, ack: AckEvent): (r: Result<Controller>)
    requires Valid(c) && c.state == Hystart
    ensures r.Ok? <==> c.cwnd + ack.ackedBytes <= MaxU64
    ensures r.Ok? ==> Valid(r.value) && r.value.inflight == c.inflight && r.value.log == c.log
    ensures r.Ok? ==> r.value.cwnd == c.cwnd + ack.ackedBytes
    ensures r.Ok? ==> (r.value.state == Steady <==> c.cwnd + ack.ackedBytes >= c.ssthresh)
    ensures r.Ok? ==> r.value.state != FastRecovery
    ensures r.Ok? && r.value.state == Steady ==>
              r.value.ssthresh == r.value.cwnd && r.value.lastMaxCwnd.None? && r.value.lastReductionTime.None?
  {
    if MaxU64 - c.cwnd < ack.ackedBytes then Err(CwndOverflow)
    else
      var grown := c.(cwnd := c.cwnd + ack.ackedBytes);
      if grown.cwnd >= grown.ssthresh then
        Ok(grown.(ssthresh := grown.cwnd, lastMaxCwnd := None, lastReductionTime := None,
                  state := Steady))
      else Ok(grown)
  }

  /** Recomputes K from the distance between Wmax and the current window and
      marks Wmax as the curve's origin point. */
  function UpdateTimeToOrigin(c: Controller): (r: Controller)
    requires Valid(c) && c.lastMaxCwnd.Some?
    ensures Valid(r) && r.originPoint == c.lastMaxCwnd
    ensures c.lastMaxCwnd.value <= c.cwnd ==> r.timeToOrigin == 0
    ensures c.cwnd < c.lastMaxCwnd.value ==>
              r.timeToOrigin == TimeToOrigin(c.cfg.mss, c.lastMaxCwnd.value - c.cwnd)
    ensures r == c.(originPoint := r.originPoint, timeToOrigin := r.timeToOrigin)
  {
    var k := if c.lastMaxCwnd.value <= c.cwnd then 0
             else TimeToOrigin(c.cfg.mss, c.lastMaxCwnd.value - c.cwnd);
    c.(timeToOrigin := k, originPoint := c.lastMaxCwnd)
  }

  /** Whole milliseconds elapsed on the cubic clock, or None when the ACK is
      older than the reduction time (the curve then contributes no change). */
  function ElapsedMs(c: Controller, ackTime: nat): Option<nat>
    requires c.lastReductionTime.Some?
  {
    if ackTime < c.lastReductionTime.value then None
    else Some((ackTime - c.lastReductionTime.value) / 1000)
  }

  /** The cubic window for an ACK at `ackTime` (the source's
      calculateCubicCwnd(calculateCubicCwndDelta(ackTime))). */
  function CubicCwndAt(c: Controller, ackTime: nat): (w: nat)
    requires Valid(c) && c.lastMaxCwnd.Some? && c.lastReductionTime.Some?
    ensures MinCwnd(c) <= w <= MaxU64
    ensures MinCwnd(c) <= c.lastMaxCwnd.value <= MaxU64 && ElapsedMs(c, ackTime) == Some(c.timeToOrigin) ==>
              w == c.lastMaxCwnd.value
    ensures MinCwnd(c) <= c.lastMaxCwnd.value <= MaxU64 && ackTime < c.lastReductionTime.value ==>
              w == c.lastMaxCwnd.value
  {
    var delta := match ElapsedMs(c, ackTime)
                 case None => 0
                 case Some(e) => CubicDelta(c.cfg.mss, e, c.timeToOrigin);
    CubicTarget(c.lastMaxCwnd.value, delta, MinCwnd(c))
  }

  /** Past the reduction time, a later ACK never gets a smaller cubic window:
      the window function is non-decreasing in elapsed time. */
  lemma CubicCwndMonotone(c: Controller, t1: nat, t2: nat)
    requires Valid(c) && c.lastMaxCwnd.Some? && c.lastReductionTime.Some?
    requires c.lastReductionTime.value <= t1 <= t2
    ensures CubicCwndAt(c, t1) <= CubicCwndAt(c, t2)
  {
    var l := c.lastReductionTime.value;
    DivMonotone(t1 - l, t2 - l, 1000);
    DeltaMonotone(c.cfg.mss, (t1 - l) / 1000, (t2 - l) / 1000, c.timeToOrigin);
    TargetMonotone(c.lastMaxCwnd.value,
                   CubicDelta(c.cfg.mss, (t1 - l) / 1000, c.timeToOrigin),
                   CubicDelta(c.cfg.mss, (t2 - l) / 1000, c.timeToOrigin), MinCwnd(c));
  }

  /** The cubic origin a Steady ACK works from is complete: Wmax and the
      reduction time are set and K was computed for this Wmax. */
  predicate HasCubicOrigin(c: Controller)
  {
    c.lastMaxCwnd.Some? && c.lastReductionTime.Some? && c.originPoint == c.lastMaxCwnd
  }

  /** The origin refresh at the start of a Steady ACK: a missing Wmax is reset
      to the current window with K = 0 (ResetTimeToOrigin), K is recomputed if
      Wmax moved since it was last computed, and a missing reduction time is
      set to the ACK time (ResetLastReductionTime). */
  function SteadyOrigin(c: Controller, ackTime: nat): (r: Controller)
    requires Valid(c) && c.state == Steady
    ensures Valid(r) && HasCubicOrigin(r)
    ensures r.cfg == c.cfg && r.state == Steady && r.cwnd == c.cwnd && r.inflight == c.inflight
    ensures r.idleStart == c.idleStart
    ensures r.lastMaxCwnd == if c.lastMaxCwnd.Some? then c.lastMaxCwnd else Some(c.cwnd)
    ensures r.lastReductionTime == if c.lastReductionTime.Some? then c.lastReductionTime else Some(ackTime)
    ensures c.lastMaxCwnd.None? ==> r.timeToOrigin == 0
    ensures c.lastMaxCwnd.Some? && c.originPoint != c.lastMaxCwnd ==>
              r.timeToOrigin == UpdateTimeToOrigin(c).timeToOrigin
    ensures HasCubicOrigin(c) ==> r == c
  {
    var c1 := if c.lastMaxCwnd.None? then
                LogMetric(c.(timeToOrigin := 0, lastMaxCwnd := Some(c.cwnd), originPoint := Some(c.cwnd)),
                          ResetTimeToOrigin)
              else if c.originPoint != c.lastMaxCwnd then UpdateTimeToOrigin(c)
              else c;
    if c1.lastReductionTime.None? then
      LogMetric(c1.(lastReductionTime := Some(ackTime)), ResetLastReductionTime)
    else c1
  }

  /** Steady (congestion avoidance). While the application is idle the ACK
      changes nothing. Otherwise the origin is refreshed and the window
      becomes the cubic window for the ACK time, unless that is smaller than
      the current window (CubicSteadyCwnd). */
  function AckInSteady(c: Controller, ack: AckEvent): (r: Controller)
    requires Valid(c) && c.state == Steady
    ensures Valid(r) && r.state == Steady && r.inflight == c.inflight
    ensures r.cwnd >= c.cwnd
    ensures IsAppLimited(c) ==> r == c
    ensures !IsAppLimited(c) ==> HasCubicOrigin(r)
    ensures !IsAppLimited(c) ==>
              r.cwnd == Max(c.cwnd, CubicCwndAt(SteadyOrigin(c, ack.ackTime), ack.ackTime))
    ensures !IsAppLimited(c) && HasCubicOrigin(c) ==>
              && r.cwnd == Max(c.cwnd, CubicCwndAt(c, ack.ackTime))
              && r.lastMaxCwnd == c.lastMaxCwnd && r.lastReductionTime == c.lastReductionTime
              && r.timeToOrigin == c.timeToOrigin
  {
    if IsAppLimited(c) then c
    else
      var c2 := SteadyOrigin(c, ack.ackTime);
      var target := CubicCwndAt(c2, ack.ackTime);
      var c3 := if target < c2.cwnd then c2 else c2.(cwnd := target);
      LogMetric(c3, CubicSteadyCwnd)
  }

  /** The first Steady ACK after Hystart, with no Wmax and no reduction time:
      both are set from the current window and the ACK time, the curve starts
      at its origin (K = 0, elapsed 0) and so the window does not move. */
  lemma SteadyFreshStart(c: Controller, ack: AckEvent)
    requires Valid(c) && c.state == Steady && !IsAppLimited(c)
    requires c.lastMaxCwnd.None? && c.lastReductionTime.None?
    ensures var r := AckInSteady(c, ack);
            && r.cwnd == c.cwnd
            && r.lastMaxCwnd == Some(c.cwnd) && r.originPoint == Some(c.cwnd)
            && r.lastReductionTime == Some(ack.ackTime) && r.timeToOrigin == 0
            && r.log == c.log + [Metric(ResetTimeToOrigin, c.inflight, c.cwnd, Steady),
                                 Metric(ResetLastReductionTime, c.inflight, c.cwnd, Steady),
                                 Metric(CubicSteadyCwnd, c.inflight, c.cwnd, Steady)]
  {
    var c1 := LogMetric(c.(timeToOrigin := 0, lastMaxCwnd := Some(c.cwnd), originPoint := Some(c.cwnd)),
                        ResetTimeToOrigin);
    var c2 := LogMetric(c1.(lastReductionTime := Some(ack.ackTime)), ResetLastReductionTime);
    assert SteadyOrigin(c, ack.ackTime) == c2;
    assert ElapsedMs(c2, ack.ackTime) == Some(0);
    assert CubicDelta(c.cfg.mss, 0, 0) == 0 by {
      assert Cube(0) == 0;
    }
    assert CubicCwndAt(c2, ack.ackTime) == c.cwnd;
  }

  /** A Steady ACK only appends congestion-metric events carrying the bytes in
      flight, and never CwndNoChange (that one is the caller's to log). */
  lemma SteadyAckLog(c: Controller, ack: AckEvent)
    requires Valid(c) && c.state == Steady
    ensures var r := AckInSteady(c, ack);
            && |r.log| >= |c.log| && r.log[..|c.log|] == c.log
            && forall i :: |c.log| <= i < |r.log| ==>
                 r.log[i].Metric? && r.log[i].bytesInFlight == r.inflight && r.log[i].tag != CwndNoChange
  {
  }

  /** True when the ACK acknowledges a packet sent after the loss that started
      the current recovery period. */
  predicate IsRecovered(c: Controller, ack: AckEvent)
    requires c.endOfRecovery.Some?
  {
    c.endOfRecovery.value < ack.largestAcked
  }

  /** FastRecovery: the window is held until an ACK of a packet numbered above
      the end of recovery; that ACK returns to Steady with the window set from
      the cubic curve, which starts no lower than the reduced window. */
  function AckInRecovery(c: Controller, ack: AckEvent): (r: Controller)
    requires Valid(c) && c.state == FastRecovery
    ensures Valid(r) && r.inflight == c.inflight && r.log == c.log
    ensures r.state == Steady <==> IsRecovered(c, ack)
    ensures r.state != Hystart
    ensures !IsRecovered(c, ack) ==> r == c
    ensures r.cwnd >= c.cwnd
    ensures IsRecovered(c, ack) ==>
              && HasCubicOrigin(r) && r.cwnd == CubicCwndAt(r, ack.ackTime)
              && r.lastMaxCwnd == c.lastMaxCwnd && r.lastReductionTime == c.lastReductionTime
              && (c.cwnd < c.lastMaxCwnd.value ==>
                    r.timeToOrigin == TimeToOrigin(c.cfg.mss, c.lastMaxCwnd.value - c.cwnd))
              && (c.cwnd == c.lastMaxCwnd.value ==> r.timeToOrigin == 0)
  {
    if IsRecovered(c, ack) then
      var c1 := UpdateTimeToOrigin(c.(state := Steady));
      RecoveryExitNoShrink(c1, c, ack.ackTime);
      c1.(cwnd := CubicCwndAt(c1, ack.ackTime))
    else c
  }

  /** The cubic window right after recovery is at least the reduced window:
      K is chosen so that the curve starts at (about) the reduced window and
      the curve only rises from there. */
  lemma RecoveryExitNoShrink(c1: Controller, c: Controller, t: nat)
    requires Valid(c) && c.state == FastRecovery
    requires c1 == UpdateTimeToOrigin(c.(state := Steady))
    ensures CubicCwndAt(c1, t) >= c.cwnd
  {
    var wmax := c.lastMaxCwnd.value;
    var mss := c.cfg.mss;
    var b := wmax - c.cwnd;
    var delta := match ElapsedMs(c1, t)
                 case None => 0
                 case Some(e) => CubicDelta(mss, e, c1.timeToOrigin);
    if b == 0 {
      if ElapsedMs(c1, t).Some? {
        DeltaSign(mss, ElapsedMs(c1, t).value, 0);
      }
    } else {
      DeltaAtOrigin(mss, b);
      if ElapsedMs(c1, t).Some? {
        DeltaMonotone(mss, 0, ElapsedMs(c1, t).value, c1.timeToOrigin);
      }
    }
    assert delta >= -(b as int);
    TargetMonotone(wmax, -(b as int), delta, MinCwnd(c));
  }

  /** Dispatches an ACK (its bytes already out of flight) to the handler of
      the current state. */
  function AckByState(c: Controller, ack: AckEvent): (r: Result<Controller>)
    requires Valid(c)
    ensures r.Ok? <==> (c.state == Hystart ==> c.cwnd + ack.ackedBytes <= MaxU64)
    ensures r.Ok? ==> Valid(r.value) && r.value.inflight == c.inflight && r.value.cwnd >= c.cwnd
    ensures r.Ok? && c.state == Hystart ==>
              && r.value.cwnd == c.cwnd + ack.ackedBytes
              && (r.value.state == Steady <==> c.cwnd + ack.ackedBytes >= c.ssthresh)
              && (r.value.state == Hystart <==> c.cwnd + ack.ackedBytes < c.ssthresh)
    ensures r.Ok? && c.state == Steady ==> r.value.state == Steady
    ensures r.Ok? && c.state == Steady && IsAppLimited(c) ==> r.value.cwnd == c.cwnd
    ensures r.Ok? && c.state == Steady && !IsAppLimited(c) ==>
              r.value.cwnd == Max(c.cwnd, CubicCwndAt(SteadyOrigin(c, ack.ackTime), ack.ackTime))
    ensures r.Ok? && c.state == FastRecovery ==>
              && (r.value.state == FastRecovery <==> ack.largestAcked <= c.endOfRecovery.value)
              && (r.value.state == Steady <==> c.endOfRecovery.value < ack.largestAcked)
              && (ack.largestAcked <= c.endOfRecovery.value ==> r.value.cwnd == c.cwnd)
              && (c.endOfRecovery.value < ack.largestAcked ==>
                    HasCubicOrigin(r.value) && r.value.cwnd == CubicCwndAt(r.value, ack.ackTime))
  {
    match c.state
    case Hystart => AckInHystart(c, ack)
    case Steady => Ok(AckInSteady(c, ack))
    case FastRecovery => Ok(AckInRecovery(c, ack))
  }

  /** The state handlers only append metric events, none of them CwndNoChange. */
  lemma AckByStateLog(c: Controller, ack: AckEvent)
    requires Valid(c) && AckByState(c, ack).Ok?
    ensures var r := AckByState(c, ack).value;
            && |r.log| >= |c.log| && r.log[..|c.log|] == c.log
            && forall i :: |c.log| <= i < |r.log| ==>
                 r.log[i].Metric? && r.log[i].bytesInFlight == r.inflight && r.log[i].tag != CwndNoChange
  {
    if c.state == Steady {
      SteadyAckLog(c, ack);
    }
  }

  /** `onPacketAcked`: the acked bytes leave flight, the current state's
      handler runs, CwndNoChange is logged when the window did not move and
      CongestionPacketAck closes the ACK. An ACK never shrinks the window. */
  function OnPacketAcked(c: Controller, ack: AckEvent): (r: Result<Controller>)
    requires Valid(c)
    ensures r.Ok? <==>
              ack.ackedBytes <= c.inflight && (c.state == Hystart ==> c.cwnd + ack.ackedBytes <= MaxU64)
    ensures r.Ok? ==> Valid(r.value)
    ensures r.Ok? ==> r.value.inflight + ack.ackedBytes == c.inflight
    ensures r.Ok? ==> r.value.cwnd >= c.cwnd
    ensures r.Ok? && c.state == Hystart ==>
              && r.value.cwnd == c.cwnd + ack.ackedBytes
              && (r.value.state == Steady <==> c.cwnd + ack.ackedBytes >= c.ssthresh)
              && (r.value.state == Hystart <==> c.cwnd + ack.ackedBytes < c.ssthresh)
    ensures r.Ok? && c.state == Steady ==> r.value.state == Steady
    ensures r.Ok? && c.state == Steady && IsAppLimited(c) ==> r.value.cwnd == c.cwnd
    ensures r.Ok? && c.state == FastRecovery ==>
              && (r.value.state == FastRecovery <==> ack.largestAcked <= c.endOfRecovery.value)
              && (r.value.state == Steady <==> c.endOfRecovery.value < ack.largestAcked)
              && (ack.largestAcked <= c.endOfRecovery.value ==> r.value.cwnd == c.cwnd)
  {
    if ack.ackedBytes > c.inflight then Err(InflightUnderflow)
    else
      var c1 := RemoveInflightBytes(c, ack.ackedBytes);
      assert IsAppLimited(c1) == IsAppLimited(c);
      var handled := AckByState(c1, ack);
      if handled.Err? then handled
      else Ok(CloseAck(handled.value, c.cwnd))
  }

  /** The window an ACK leaves behind. In Steady, not idle, with the cubic
      origin in place, it is the larger of the current window and the cubic
      window for the ACK time. The ACK that ends recovery puts the window on
      the freshly computed cubic curve. */
  lemma AckedWindow(c: Controller, ack: AckEvent)
    requires Valid(c) && OnPacketAcked(c, ack).Ok?
    ensures var r := OnPacketAcked(c, ack).value;
            && (c.state == Steady && !IsAppLimited(c) && HasCubicOrigin(c) ==>
                  r.cwnd == Max(c.cwnd, CubicCwndAt(c, ack.ackTime)))
            && (c.state == FastRecovery && c.endOfRecovery.value < ack.largestAcked ==>
                  && HasCubicOrigin(r) && r.cwnd == CubicCwndAt(r, ack.ackTime)
                  && r.cfg == c.cfg && r.lastMaxCwnd == c.lastMaxCwnd
                  && r.lastReductionTime == c.lastReductionTime
                  && (c.cwnd < c.lastMaxCwnd.value ==>
                        r.timeToOrigin == TimeToOrigin(c.cfg.mss, c.lastMaxCwnd.value - c.cwnd)))
  {
    var c1 := RemoveInflightBytes(c, ack.ackedBytes);
    assert IsAppLimited(c1) == IsAppLimited(c) && HasCubicOrigin(c1) == HasCubicOrigin(c);
    if HasCubicOrigin(c1) {
      SameCurve(c1, c, ack.ackTime);
    }
    var h := AckByState(c1, ack).value;
    var r := CloseAck(h, c.cwnd);
    assert OnPacketAcked(c, ack).value == r;
    if HasCubicOrigin(h) {
      SameCurve(r, h, ack.ackTime);
    }
  }

  /** The cubic window depends only on the configuration and the curve's
      parameters (Wmax, the reduction time and K). */
  lemma SameCurve(a: Controller, b: Controller, t: nat)
    requires Valid(a) && Valid(b) && a.lastMaxCwnd.Some? && a.lastReductionTime.Some?
    requires a.cfg == b.cfg && a.lastMaxCwnd == b.lastMaxCwnd
    requires a.lastReductionTime == b.lastReductionTime && a.timeToOrigin == b.timeToOrigin
    ensures CubicCwndAt(a, t) == CubicCwndAt(b, t)
  {
  }

  /** The events that close an ACK: CwndNoChange when the window is still
      `cwndBefore`, then CongestionPacketAck. */
  function CloseAck(c: Controller, cwndBefore: nat): (r: Controller)
    ensures r == c.(log := r.log)
    ensures r.cwnd != cwndBefore ==> r.log == c.log + [Metric(CongestionPacketAck, c.inflight, c.cwnd, c.state)]
    ensures r.cwnd == cwndBefore ==>
              r.log == c.log + [Metric(CwndNoChange, c.inflight, c.cwnd, c.state),
                                Metric(CongestionPacketAck, c.inflight, c.cwnd, c.state)]
  {
    var c1 := if c.cwnd == cwndBefore then LogMetric(c, CwndNoChange) else c;
    LogMetric(c1, CongestionPacketAck)
  }

  /** What an ACK logs: the handler's events, then CwndNoChange exactly when the
      window did not move, then CongestionPacketAck; every event carries the
      bytes still in flight. */
  lemma AckLog(c: Controller, ack: AckEvent)
    requires Valid(c) && OnPacketAcked(c, ack).Ok?
    ensures var r := OnPacketAcked(c, ack).value;
            && |r.log| >= |c.log| + 1 && r.log[..|c.log|] == c.log
            && r.log[|r.log| - 1] == Metric(CongestionPacketAck, r.inflight, r.cwnd, r.state)
            && (r.cwnd == c.cwnd ==>
                  |r.log| >= |c.log| + 2 && r.log[|r.log| - 2] == Metric(CwndNoChange, r.inflight, r.cwnd, r.state))
            && (r.cwnd != c.cwnd ==>
                  forall i :: |c.log| <= i < |r.log| ==> r.log[i].Metric? && r.log[i].tag != CwndNoChange)
            && (forall i :: |c.log| <= i < |r.log| ==> r.log[i].Metric? && r.log[i].bytesInFlight == r.inflight)
  {
    var c1 := RemoveInflightBytes(c, ack.ackedBytes);
    var c2 := AckByState(c1, ack).value;
    AckByStateLog(c1, ack);
    var r := OnPacketAcked(c, ack).value;
    assert r == CloseAck(c2, c.cwnd);
    assert r.log[..|c2.log|] == c2.log;
    assert c2.log[..|c.log|] == c.log;
    assert r.log[..|c.log|] == c.log by {
      assert r.log[..|c.log|] == r.log[..|c2.log|][..|c.log|];
    }
  }

  /** `onPacketAckOrLoss`: a loss is processed before the ACK; at least one of
      the two must be present. */
  function OnPacketAckOrLoss(c: Controller, ack: Option<AckEvent>, loss: Option<LossEvent>): (r: Result<Controller>)
    requires Valid(c)
    ensures ack.None? && loss.None? ==> r == Err(NoEvent)
    ensures r.Ok? ==> Valid(r.value)
    ensures ack.None? && loss.Some? ==> r == OnPacketLoss(c, loss.value)
    ensures ack.Some? && loss.None? ==> r == OnPacketAcked(c, ack.value)
    ensures ack.Some? && loss.Some? && OnPacketLoss(c, loss.value).Ok? ==>
              r == OnPacketAcked(OnPacketLoss(c, loss.value).value, ack.value)
    ensures loss.Some? && OnPacketLoss(c, loss.value).Err? ==> r == OnPacketLoss(c, loss.value)
  {
    if ack.None? && loss.None? then Err(NoEvent)
    else
      var afterLoss := if loss.Some? then OnPacketLoss(c, loss.value) else Ok(c);
      if afterLoss.Err? then afterLoss
      else if ack.Some? then OnPacketAcked(afterLoss.value, ack.value)
      else afterLoss
  }

  /** An ACK-or-loss call only appends congestion-metric events to the log. */
  lemma AckOrLossLog(c: Controller, ack: Option<AckEvent>, loss: Option<LossEvent>)
    requires Valid(c)
    ensures var r := OnPacketAckOrLoss(c, ack, loss);
            r.Ok? ==>
              && |r.value.log| >= |c.log| && r.value.log[..|c.log|] == c.log
              && forall i :: |c.log| <= i < |r.value.log| ==> r.value.log[i].Metric?
  {
    if OnPacketAckOrLoss(c, ack, loss).Err? {
      return;
    }
    var mid := if loss.Some? then OnPacketLoss(c, loss.value).value else c;
    if loss.Some? {
      LossLog(c, loss.value);
    }
    assert |mid.log| >= |c.log| && mid.log[..|c.log|] == c.log;
    assert forall i :: |c.log| <= i < |mid.log| ==> mid.log[i].Metric?;
    if ack.Some? {
      AckLog(mid, ack.value);
      LogExtendsTrans(c.log, mid.log, OnPacketAcked(mid, ack.value).value.log);
    }
  }

  /** Two appends of metric events are one append of metric events. */
  lemma LogExtendsTrans(a: seq<Event>, b: seq<Event>, d: seq<Event>)
    requires |b| >= |a| && b[..|a|] == a && forall i :: |a| <= i < |b| ==> b[i].Metric?
    requires |d| >= |b| && d[..|b|] == b && forall i :: |b| <= i < |d| ==> d[i].Metric?
    ensures |d| >= |a| && d[..|a|] == a && forall i :: |a| <= i < |d| ==> d[i].Metric?
  {
    assert d[..|a|] == d[..|b|][..|a|];
    forall i | |a| <= i < |d|
      ensures d[i].Metric?
    {
      if i < |b| {
        assert d[i] == d[..|b|][i];
      }
    }
  }

  /*** App idle ***/

  /** `setAppIdle`: every call is logged. Entering idle records its start;
      leaving idle shifts the reduction time forward by the whole milliseconds
      spent idle, so the cubic clock does not count them. */
  function SetAppIdle(c: Controller, idle: bool, now: nat): (r: Controller)
    ensures r.log == c.log + [AppIdleUpdate(idle)]
    ensures IsAppLimited(r) == idle
    ensures idle && !IsAppLimited(c) ==> r.idleStart == Some(now)
    ensures idle && IsAppLimited(c) ==> r.idleStart == c.idleStart
    ensures r.cwnd == c.cwnd && r.inflight == c.inflight && r.state == c.state && r.ssthresh == c.ssthresh
    ensures r.lastMaxCwnd == c.lastMaxCwnd && r.timeToOrigin == c.timeToOrigin && r.originPoint == c.originPoint
    ensures r.lastReductionTime.Some? <==> c.lastReductionTime.Some?
    ensures !idle && c.idleStart.Some? && c.idleStart.value <= now && c.lastReductionTime.Some? ==>
              r.lastReductionTime.value == c.lastReductionTime.value + (now - c.idleStart.value) / 1000 * 1000
    ensures !(!idle && c.idleStart.Some? && c.idleStart.value <= now) ==>
              r.lastReductionTime == c.lastReductionTime
    ensures Valid(c) ==> Valid(r)
  {
    var logged := c.(log := c.log + [AppIdleUpdate(idle)]);
    if idle then
      if c.idleStart.None? then logged.(idleStart := Some(now)) else logged
    else
      var shifted :=
        if c.idleStart.Some? && c.idleStart.value <= now && c.lastReductionTime.Some? then
          logged.(lastReductionTime := Some(c.lastReductionTime.value + (now - c.idleStart.value) / 1000 * 1000))
        else logged;
      shifted.(idleStart := None)
  }

  /** Idle time is excluded from the cubic clock: after an idle period from t1
      to t2, an ACK at t computes the same window as an ACK at t minus the idle
      milliseconds would have without the idle period. */
  lemma IdleTimeExcluded(c: Controller, t1: nat, t2: nat, t: nat)
    requires Valid(c) && !IsAppLimited(c)
    requires c.lastMaxCwnd.Some? && c.lastReductionTime.Some?
    requires t1 <= t2
    requires t >= (t2 - t1) / 1000 * 1000
    ensures var r := SetAppIdle(SetAppIdle(c, true, t1), false, t2);
            Valid(r) && !IsAppLimited(r) && r.lastMaxCwnd.Some? && r.lastReductionTime.Some? &&
            CubicCwndAt(r, t) == CubicCwndAt(c, t - (t2 - t1) / 1000 * 1000)
  {
    var shift := (t2 - t1) / 1000 * 1000;
    var r := SetAppIdle(SetAppIdle(c, true, t1), false, t2);
    assert r.lastReductionTime.value == c.lastReductionTime.value + shift;
    assert r.cfg == c.cfg;
    assert ElapsedMs(r, t) == ElapsedMs(c, t - shift);
  }

  /** Growth resumes where it stopped: in Steady, an ACK after an idle period
      from t1 to t2 moves the window exactly as the same ACK would have,
      arriving the idle milliseconds earlier, without the idle period. */
  lemma IdleAckWindow(c: Controller, t1: nat, t2: nat, ack: AckEvent)
    requires Valid(c) && c.state == Steady && !IsAppLimited(c) && HasCubicOrigin(c)
    requires ack.ackedBytes <= c.inflight
    requires t1 <= t2 && ack.ackTime >= (t2 - t1) / 1000 * 1000
    ensures var r := SetAppIdle(SetAppIdle(c, true, t1), false, t2);
            var early := ack.(ackTime := ack.ackTime - (t2 - t1) / 1000 * 1000);
            && OnPacketAcked(r, ack).Ok? && OnPacketAcked(c, early).Ok?
            && OnPacketAcked(r, ack).value.cwnd == OnPacketAcked(c, early).value.cwnd
  {
    var shift := (t2 - t1) / 1000 * 1000;
    var r := SetAppIdle(SetAppIdle(c, true, t1), false, t2);
    var early := ack.(ackTime := ack.ackTime - shift);
    IdleTimeExcluded(c, t1, t2, ack.ackTime);
    assert Valid(r) && r.state == Steady && !IsAppLimited(r) && HasCubicOrigin(r);
    assert r.cwnd == c.cwnd && r.inflight == c.inflight;
    var a1 := OnPacketAcked(r, ack);
    var a2 := OnPacketAcked(c, early);
    AckedWindow(r, ack);
    AckedWindow(c, early);
    assert a1.Ok? && a1.value.cwnd == Max(r.cwnd, CubicCwndAt(r, ack.ackTime));
    assert a2.Ok? && a2.value.cwnd == Max(c.cwnd, CubicCwndAt(c, early.ackTime));
  }
}

=== FILE: cubic_growth.dfy ===
/*******************************************************************************
 *  The cubic window function of section 4.1 of RFC 8312,
 *      W(t) = C * (t - K)^3 + Wmax,   C = 0.4,
 *  in the integer form the controller evaluates it: windows in bytes, time in
 *  milliseconds, K the integer cube root of the origin distance.
 *******************************************************************************/

module CubicGrowth {
  import opened CubicTypes

  function Cube(x: int): int
  {
    x * x * x
  }

  lemma MulLeft(k: int, x: int, y: int)
    requires 0 <= k && x <= y
    ensures k * x <= k * y
  {
  }

  lemma CubeOdd(x: int)
    ensures Cube(-x) == -Cube(x)
  {
    calc {
      Cube(-x);
      (-x) * (-x) * (-x);
      { assert (-x) * (-x) == x * x; }
      (x * x) * (-x);
      -(x * x * x);
    }
  }

  lemma CubeMonotoneNonNeg(a: int, b: int)
    requires 0 <= a <= b
    ensures Cube(a) <= Cube(b)
  {
    MulLeft(a, a, b);
    MulLeft(b, a, b);
    assert a * a <= b * b;
    assert 0 <= a * a;
    MulLeft(a * a, a, b);
    MulLeft(b, a * a, b * b);
    assert a * a * a <= a * a * b;
    assert a * a * b == b * (a * a);
    assert b * (b * b) == b * b * b;
  }

  /** x -> x^3 is monotone on all integers. */
  lemma CubeMonotone(a: int, b: int)
    requires a <= b
    ensures Cube(a) <= Cube(b)
  {
    if 0 <= a {
      CubeMonotoneNonNeg(a, b);
    } else if b <= 0 {
      CubeMonotoneNonNeg(-b, -a);
      CubeOdd(a);
      CubeOdd(b);
    } else {
      CubeMonotoneNonNeg(0, -a);
      CubeOdd(a);
      CubeMonotoneNonNeg(0, b);
    }
  }

  /** Floor division by a positive divisor is monotone. */
  lemma DivMonotone(x: int, y: int, d: int)
    requires d > 0 && x <= y
    ensures x / d <= y / d
  {
    var qx, qy := x / d, y / d;
    assert d * qx <= x;
    assert y < d * qy + d;
    assert d * qx < d * (qy + 1);
    MulStrict(d, qx, qy + 1);
  }

  /** Cancelling a positive factor preserves a strict inequality. */
  lemma MulStrict(d: int, a: int, b: int)
    requires d > 0 && d * a < d * b
    ensures a < b
  {
    if b <= a {
      MulLeft(d, b, a);
    }
  }

  /** d * a <= x gives a <= x / d. */
  lemma DivLowerBound(a: int, x: int, d: int)
    requires d > 0 && d * a <= x
    ensures a <= x / d
  {
    var q := x / d;
    assert x < d * q + d;
    assert d * a < d * (q + 1);
    MulStrict(d, a, q + 1);
  }

  /** x <= d * b gives x / d <= b. */
  lemma DivUpperBound(b: int, x: int, d: int)
    requires d > 0 && x <= d * b
    ensures x / d <= b
  {
    var q := x / d;
    assert d * q <= x;
    assert d * q < d * (b + 1);
    MulStrict(d, q, b + 1);
  }

  lemma CubeGrows(n: nat)
    ensures n < Cube(n + 1)
  {
    var m := n + 1;
    assert m * m >= m by { MulLeft(m, 1, m); }
    assert m * m * m >= m * m by { MulLeft(m * m, 1, m); }
  }

  /** Binary search for the integer cube root inside [lo, hi). */
  function CbrtSearch(n: nat, lo: nat, hi: nat): (k: nat)
    requires lo < hi
    requires Cube(lo) <= n < Cube(hi)
    ensures lo <= k < hi
    ensures Cube(k) <= n < Cube(k + 1)
    decreases hi - lo
  {
    if lo + 1 == hi then lo
    else
      var mid := (lo + hi) / 2;
      if Cube(mid) <= n then CbrtSearch(n, mid, hi) else CbrtSearch(n, lo, mid)
  }

  /** The integer cube root: the largest k with k^3 <= n. */
  function ICbrt(n: nat): (k: nat)
    ensures Cube(k) <= n < Cube(k + 1)
  {
    CubeGrows(n);
    CbrtSearch(n, 0, n + 1)
  }

  /** The bracket k^3 <= n < (k+1)^3 determines the cube root. */
  lemma CbrtUnique(n: nat, k: nat)
    requires Cube(k) <= n < Cube(k + 1)
    ensures ICbrt(n) == k
  {
    var j := ICbrt(n);
    if j < k {
      CubeMonotone(j + 1, k);
    } else if k < j {
      CubeMonotone(k + 1, j);
    }
  }

  /** K of RFC 8312, in whole milliseconds: the time the cubic curve needs to
      climb from the reduced window back to Wmax. `bytesToOrigin` is
      Wmax - cwnd; the byte count is scaled to packets and divided by C = 0.4
      (times 10^9 for milliseconds cubed), in the same order of operations as
      the source, but in unbounded integers: the 64-bit wrap of
      bytesToOrigin * 10^6 above about 1.8 * 10^13 bytes is not reproduced. */
  function TimeToOrigin(mss: nat, bytesToOrigin: nat): (k: nat)
    requires mss > 0
    ensures Cube(k) <= (bytesToOrigin * 1000000 / mss) * 2500 < Cube(k + 1)
  {
    ICbrt((bytesToOrigin * 1000000 / mss) * 2500)
  }

  /** Window change relative to Wmax after `elapsedMs` milliseconds:
      floor(mss * 0.4 * (t - K)^3 / 10^9) bytes. */
  function CubicDelta(mss: nat, elapsedMs: nat, k: nat): (d: int)
    ensures d * 10_000_000_000 <= mss * 4 * Cube(elapsedMs - k) < (d + 1) * 10_000_000_000
    ensures elapsedMs == k ==> d == 0
  {
    (mss * 4 * Cube(elapsedMs - k)) / 10_000_000_000
  }

  /** The target window grows with elapsed time (RFC 8312 W(t) is increasing). */
  lemma DeltaMonotone(mss: nat, e1: nat, e2: nat, k: nat)
    requires e1 <= e2
    ensures CubicDelta(mss, e1, k) <= CubicDelta(mss, e2, k)
  {
    CubeMonotone(e1 - k, e2 - k);
    MulLeft(mss * 4, Cube(e1 - k), Cube(e2 - k));
    DivMonotone(mss * 4 * Cube(e1 - k), mss * 4 * Cube(e2 - k), 10_000_000_000);
  }

  /** The curve reaches Wmax exactly at K, is below it before K and at or
      above it from K on. */
  lemma DeltaSign(mss: nat, e: nat, k: nat)
    requires mss > 0
    ensures e == k ==> CubicDelta(mss, e, k) == 0
    ensures CubicDelta(mss, e, k) >= 0 <==> e >= k
  {
    if e >= k {
      CubeMonotone(0, e - k);
      assert mss * 4 * Cube(e - k) >= 0 by { MulLeft(mss * 4, 0, Cube(e - k)); }
    } else {
      CubeMonotone(e - k, -1);
      assert Cube(-1) == -1;
      assert mss * 4 * Cube(e - k) <= -(mss * 4) by { MulLeft(mss * 4, Cube(e - k), -1); }
    }
  }

  lemma ScaledBytesBound(mss: nat, b: nat)
    requires mss > 0
    ensures mss * 4 * ((b * 1000000 / mss) * 2500) <= b * 10_000_000_000
  {
    var q := b * 1000000 / mss;
    assert mss * q <= b * 1000000;
    calc {
      mss * 4 * (q * 2500);
      (mss * q) * 10000;
    <= { MulLeft(10000, mss * q, b * 1000000); }
      b * 1000000 * 10000;
    }
  }

  lemma NegDivBound(v: int, b: int)
    requires v >= -(b * 10_000_000_000)
    ensures v / 10_000_000_000 >= -b
  {
    DivMonotone(-(b * 10_000_000_000), v, 10_000_000_000);
    assert -(b * 10_000_000_000) == 10_000_000_000 * (-b);
  }

  lemma ScaledCubeBound(mss: nat, k: nat, b: nat)
    requires mss > 0
    requires Cube(k) <= (b * 1000000 / mss) * 2500
    ensures mss * 4 * Cube(k) <= b * 10_000_000_000
  {
    MulLeft(mss * 4, Cube(k), (b * 1000000 / mss) * 2500);
    ScaledBytesBound(mss, b);
  }

  lemma DeltaBelowK(mss: nat, k: nat, b: nat)
    requires mss > 0
    requires Cube(k) <= (b * 1000000 / mss) * 2500
    ensures CubicDelta(mss, 0, k) >= -(b as int)
  {
    ScaledCubeBound(mss, k, b);
    CubeOdd(k);
    var v := mss * 4 * Cube(-(k as int));
    assert v == -(mss * 4 * Cube(k));
    NegDivBound(v, b);
    assert CubicDelta(mss, 0, k) == v / 10_000_000_000;
  }

  /** At the moment of a reduction (elapsed 0) the curve starts no lower than
      the reduced window: W(0) >= Wmax - bytesToOrigin. */
  lemma DeltaAtOrigin(mss: nat, bytesToOrigin: nat)
    requires mss > 0
    ensures CubicDelta(mss, 0, TimeToOrigin(mss, bytesToOrigin)) >= -(bytesToOrigin as int)
  {
    DeltaBelowK(mss, TimeToOrigin(mss, bytesToOrigin), bytesToOrigin);
  }

  /** The window the cubic curve asks for, given Wmax and the change delta:
      the minimum window when delta would take it below zero, 2^64 - 1 when
      Wmax + delta overflows 64 bits, and otherwise Wmax + delta floored at the
      minimum window. */
  function CubicTarget(lastMax: nat, delta: int, minCwnd: nat): (w: nat)
    requires minCwnd <= MaxU64
    ensures minCwnd <= w <= MaxU64
    ensures 0 <= lastMax + delta <= MaxU64 && minCwnd <= lastMax + delta ==> w == lastMax + delta
  {
    if delta < 0 && -delta > lastMax then minCwnd
    else if lastMax + delta > MaxU64 then MaxU64
    else if lastMax + delta < minCwnd then minCwnd
    else lastMax + delta
  }

  /** A larger delta never yields a smaller target window. */
  lemma TargetMonotone(lastMax: nat, d1: int, d2: int, minCwnd: nat)
    requires minCwnd <= MaxU64 && d1 <= d2
    ensures CubicTarget(lastMax, d1, minCwnd) <= CubicTarget(lastMax, d2, minCwnd)
  {
  }
}

=== FILE: cubic_pacing.dfy ===
/*******************************************************************************
 *  The pacing engine: converts the window, the smoothed RTT and the state's
 *  pacing gain into a burst size per interval and an interval, with the
 *  unpaceable fallback, the spread-across-RTT mode and the one-shot
 *  compensation for a late pacing timer.
 *******************************************************************************/

module CubicPacing {
  import opened CubicTypes
  import opened CubicGrowth

  /** Pacing gain in quarters: 2 in Hystart, 1.25 in FastRecovery, 1 in Steady. */
  function GainQuarters(s: CubicState): (q: nat)
    ensures 4 <= q <= 8
  {
    match s
    case Hystart => 8
    case FastRecovery => 5
    case Steady => 4
  }

  /** Pacing is possible only when the RTT is at least the minimal interval,
      that is, when one RTT holds at least one whole interval. */
  predicate CanBePaced(c: Controller, srtt: nat): (b: bool)
    ensures c.minimalPacingInterval > 0 ==> (b <==> IntervalsPerRtt(c, srtt) >= 1)
  {
    c.minimalPacingInterval <= srtt
  }

  /** How many whole minimal intervals fit in one RTT: the quotient of two
      durations, truncated. */
  function IntervalsPerRtt(c: Controller, srtt: nat): nat
    requires c.minimalPacingInterval > 0
  {
    srtt / c.minimalPacingInterval
  }

  /** Division rounded up: the least r with r * d >= n. */
  function CeilDiv(n: nat, d: nat): (r: nat)
    requires d > 0
    ensures r * d >= n
    ensures r > 0 ==> (r - 1) * d < n
  {
    var r := (n + d - 1) / d;
    DivLowerBound(r, n + d - 1, d);
    assert d * r <= n + d - 1;
    assert r * d >= n by {
      assert n + d - 1 < d * r + d;
    }
    r
  }

  /** The window in whole packets (integer division first) times the gain,
      counted in quarter packets. */
  function GainedWindowQuarters(c: Controller): nat
    requires c.cfg.mss > 0
  {
    (c.cwnd / c.cfg.mss) * GainQuarters(c.state)
  }

  /** Packets per minimal interval: ceil(cwndInMss * gain / (srtt / interval)),
      where srtt / interval is the truncated count of whole intervals in one
      RTT. r bursts, one per interval of one RTT, cover the gained window, and
      r - 1 would not. */
  function BurstPerInterval(c: Controller, srtt: nat): (r: nat)
    requires Valid(c) && CanBePaced(c, srtt)
    ensures r * (4 * IntervalsPerRtt(c, srtt)) >= GainedWindowQuarters(c)
    ensures r > 0 ==> (r - 1) * (4 * IntervalsPerRtt(c, srtt)) < GainedWindowQuarters(c)
  {
    CeilDiv(GainedWindowQuarters(c), 4 * IntervalsPerRtt(c, srtt))
  }

  /** `getPacingInterval`: zero when pacing is impossible; the minimal interval
      normally; in spread mode the interval is stretched to
      srtt * burst / (window * gain), so the bursts of one RTT add up to the
      gained window, but never below the minimal interval. */
  function PacingInterval(c: Controller, srtt: nat): (i: nat)
    requires Valid(c)
    ensures i == 0 <==> !CanBePaced(c, srtt)
    ensures CanBePaced(c, srtt) ==> i >= c.minimalPacingInterval
    ensures CanBePaced(c, srtt) && !c.cfg.spreadAcrossRtt ==> i == c.minimalPacingInterval
    ensures CanBePaced(c, srtt) && c.cfg.spreadAcrossRtt && GainedWindowQuarters(c) > 0 &&
            i > c.minimalPacingInterval ==>
              i * GainedWindowQuarters(c) <= srtt * BurstPerInterval(c, srtt) * 4
                < (i + 1) * GainedWindowQuarters(c)
  {
    if !CanBePaced(c, srtt) then 0
    else if !c.cfg.spreadAcrossRtt then c.minimalPacingInterval
    else
      var q := GainedWindowQuarters(c);
      if q == 0 then c.minimalPacingInterval
      else
        var spread := srtt * BurstPerInterval(c, srtt) * 4;
        DivBracket(spread, q);
        var stretched := spread / q;
        if stretched < c.minimalPacingInterval then c.minimalPacingInterval else stretched
  }

  /** Floor division brackets its dividend. */
  lemma DivBracket(n: nat, d: nat)
    requires d > 0
    ensures (n / d) * d <= n < (n / d + 1) * d
  {
  }

  function Min(a: nat, b: nat): nat
  {
    if a <= b then a else b
  }

  /** The rate a query returns without late-timer compensation: the
      transport's write limit when pacing is impossible, otherwise the burst
      per interval capped at the maximum burst. */
  function UncompensatedRate(c: Controller, srtt: nat): (r: nat)
    requires Valid(c)
    ensures !CanBePaced(c, srtt) ==> r == c.cfg.writeConnectionDataPacketsLimit
    ensures CanBePaced(c, srtt) ==> r <= c.cfg.maxBurstPackets && r <= BurstPerInterval(c, srtt)
    ensures CanBePaced(c, srtt) ==> r == c.cfg.maxBurstPackets || r == BurstPerInterval(c, srtt)
  {
    if !CanBePaced(c, srtt) then c.cfg.writeConnectionDataPacketsLimit
    else Min(c.cfg.maxBurstPackets, BurstPerInterval(c, srtt))
  }

  /** `markPacerTimeoutScheduled`: records when the caller's pacing timer was
      due; only the next rate query sees it. */
  function MarkPacerTimeoutScheduled(c: Controller, now: nat): (r: Controller)
    ensures r.pacerTimeout == Some(now)
    ensures r.(pacerTimeout := c.pacerTimeout) == c
    ensures Valid(c) ==> Valid(r)
  {
    c.(pacerTimeout := Some(now))
  }

  /** Extra packets credited to a late timer recorded at `timer`: one burst
      per whole interval between the recorded time and now. */
  function LateBurstCredit(timer: Option<nat>, now: nat, interval: nat, burst: nat): (credit: nat)
    requires interval > 0
    ensures timer.None? || now < timer.value + interval ==> credit == 0
    ensures timer.Some? && now >= timer.value + interval ==> credit >= burst
    ensures timer.Some? && now >= timer.value ==>
              && credit * interval <= (now - timer.value) * burst
              && (burst > 0 ==> (now - timer.value) * burst < (credit + burst) * interval)
  {
    match timer
    case None => 0
    case Some(t) =>
      if now >= t then
        CreditBounds(now - t, interval, burst);
        (now - t) / interval * burst
      else 0
  }

  /** Whole intervals in e, each worth one burst: their time fits in e, one
      more interval would overshoot it, and at least one interval counts once
      e reaches it. */
  lemma CreditBounds(e: nat, interval: nat, burst: nat)
    requires interval > 0
    ensures e / interval * burst * interval <= e * burst
    ensures burst > 0 ==> e * burst < (e / interval * burst + burst) * interval
    ensures e >= interval ==> e / interval * burst >= burst
    ensures e < interval ==> e / interval * burst == 0
  {
    var q := e / interval;
    assert q * interval <= e < q * interval + interval;
    ScaleBracket(q * interval, e, q * interval + interval, burst);
    Rearrange(q, burst, interval);
    if e >= interval {
      DivLowerBound(1, e, interval);
      MulLeft(burst, 1, q);
      assert burst * q == q * burst;
    } else {
      assert q == 0 by {
        if q >= 1 {
          MulLeft(interval, 1, q);
          assert false;
        }
      }
    }
  }

  lemma Rearrange(q: int, b: int, i: int)
    ensures q * b * i == b * (q * i)
    ensures (q * b + b) * i == b * (q * i + i)
  {
  }

  /** Scaling a bracket lo <= e < hi by a positive factor keeps it. */
  lemma ScaleBracket(lo: int, e: int, hi: int, k: nat)
    requires lo <= e < hi
    ensures k * lo <= k * e
    ensures k > 0 ==> k * e < k * hi
  {
    MulLeft(k, lo, e);
    if k > 0 {
      assert k * hi - k * e == k * (hi - e);
    }
  }

  /** `getPacingRate(now)`: the rate to use now, and the controller with the
      recorded timer time consumed. A paced rate is the burst per interval
      plus the late-timer credit, capped at the maximum burst; compensation
      never lowers the rate, and a timer late by a whole interval raises it
      whenever the cap leaves room. */
  function GetPacingRate(c: Controller, srtt: nat, now: nat): (res: (nat, Controller))
    requires Valid(c)
    ensures res.1 == c.(pacerTimeout := None)
    ensures Valid(res.1)
    ensures !CanBePaced(c, srtt) ==> res.0 == c.cfg.writeConnectionDataPacketsLimit
    ensures CanBePaced(c, srtt) ==> res.0 <= c.cfg.maxBurstPackets
    ensures res.0 >= UncompensatedRate(c, srtt)
    ensures c.pacerTimeout.None? ==> res.0 == UncompensatedRate(c, srtt)
    ensures CanBePaced(c, srtt) && c.pacerTimeout.Some? &&
            now >= c.pacerTimeout.value + PacingInterval(c, srtt) &&
            0 < BurstPerInterval(c, srtt) < c.cfg.maxBurstPackets ==>
              res.0 > UncompensatedRate(c, srtt)
    ensures CanBePaced(c, srtt) ==>
              res.0 == Min(c.cfg.maxBurstPackets,
                           BurstPerInterval(c, srtt) +
                           LateBurstCredit(c.pacerTimeout, now, PacingInterval(c, srtt), BurstPerInterval(c, srtt)))
  {
    var next := c.(pacerTimeout := None);
    if !CanBePaced(c, srtt) then (c.cfg.writeConnectionDataPacketsLimit, next)
    else
      var base := BurstPerInterval(c, srtt);
      var interval := PacingInterval(c, srtt);
      var credit := LateBurstCredit(c.pacerTimeout, now, interval, base);
      (Min(c.cfg.maxBurstPackets, base + credit), next)
  }

  /** Late-timer compensation is consumed by the query that uses it: a second
      query without a fresh mark returns the uncompensated rate, whatever its
      time. */
  lemma CompensationOneShot(c: Controller, srtt: nat, t1: nat, t2: nat)
    requires Valid(c)
    ensures GetPacingRate(GetPacingRate(c, srtt, t1).1, srtt, t2).0 == UncompensatedRate(c, srtt)
  {
    var c1 := GetPacingRate(c, srtt, t1).1;
    assert c1.cwnd == c.cwnd && c1.state == c.state && c1.cfg == c.cfg;
    assert c1.minimalPacingInterval == c.minimalPacingInterval;
    assert CanBePaced(c, srtt) ==> BurstPerInterval(c1, srtt) == BurstPerInterval(c, srtt) by {
      assert GainedWindowQuarters(c1) == GainedWindowQuarters(c);
    }
  }

  /** The late-timer scenario: after a mark at t, a query one interval late or
      more returns more than the uncompensated rate (when the cap leaves room),
      and the next query without a new mark returns strictly less than that. */
  lemma LateTimerCompensation(c: Controller, srtt: nat, t: nat, late: nat)
    requires Valid(c) && CanBePaced(c, srtt)
    requires late >= t + PacingInterval(c, srtt)
    requires 0 < BurstPerInterval(c, srtt) < c.cfg.maxBurstPackets
    ensures var first := GetPacingRate(MarkPacerTimeoutScheduled(c, t), srtt, late);
            && first.0 > UncompensatedRate(c, srtt)
            && first.0 <= c.cfg.maxBurstPackets
            && GetPacingRate(first.1, srtt, late).0 < first.0
  {
    var m := MarkPacerTimeoutScheduled(c, t);
    assert BurstPerInterval(m, srtt) == BurstPerInterval(c, srtt) by {
      assert GainedWindowQuarters(m) == GainedWindowQuarters(c);
    }
    assert PacingInterval(m, srtt) == PacingInterval(c, srtt);
    assert UncompensatedRate(m, srtt) == UncompensatedRate(c, srtt);
    CompensationOneShot(m, srtt, late, late);
  }
}

=== FILE: cubic_run.dfy ===
/*******************************************************************************
 *  The controller driven by a sequence of transport events: every entry
 *  point in one step function, and the laws that hold over any run — the
 *  controller invariant, a log that only grows, and one app-idle event per
 *  setAppIdle call.
 *******************************************************************************/

module CubicRun {
  import opened CubicTypes
  import opened CubicController
  import opened CubicPacing

  /** One call into the controller from the transport. */
  datatype Input =
    | Sent(packet: Packet)
    | AckOrLoss(ack: Option<AckEvent>, loss: Option<LossEvent>)
    | AppIdle(idle: bool, now: nat)
    | MarkPacerTimeout(now: nat)
    | PacingRateQuery(srtt: nat, now: nat)

  /** The controller after one call; a pacing query keeps only the state change
      (the consumed timer), its rate goes to the caller. */
  function Step(c: Controller, e: Input): (r: Result<Controller>)
    requires Valid(c)
    ensures r.Ok? ==> Valid(r.value)
    ensures r.Ok? ==> |r.value.log| >= |c.log| && r.value.log[..|c.log|] == c.log
    ensures r.Ok? && !e.AppIdle? ==> forall i :: |c.log| <= i < |r.value.log| ==> r.value.log[i].Metric?
    ensures r.Ok? && e.AppIdle? ==> r.value.log == c.log + [AppIdleUpdate(e.idle)]
  {
    match e
    case Sent(p) => OnPacketSent(c, p)
    case AckOrLoss(ack, loss) =>
      AckOrLossLog(c, ack, loss);
      OnPacketAckOrLoss(c, ack, loss)
    case AppIdle(idle, now) => Ok(SetAppIdle(c, idle, now))
    case MarkPacerTimeout(now) => Ok(MarkPacerTimeoutScheduled(c, now))
    case PacingRateQuery(srtt, now) => Ok(GetPacingRate(c, srtt, now).1)
  }

  /** Runs the calls in order, stopping at the first error. */
  function Run(c: Controller, es: seq<Input>): (r: Result<Controller>)
    requires Valid(c)
    ensures r.Ok? ==> Valid(r.value)
    ensures r.Ok? ==> MinCwnd(r.value) == MinCwnd(c) <= r.value.cwnd <= MaxU64
    decreases |es|
  {
    if |es| == 0 then Ok(c)
    else
      match Step(c, es[0])
      case Err(e) => Err(e)
      case Ok(c1) =>
        assert c1.cfg == c.cfg by { StepKeepsConfig(c, es[0]); }
        Run(c1, es[1..])
  }

  /** No call changes the configuration, and only setAppIdle changes the
      idle state. */
  lemma StepKeepsConfig(c: Controller, e: Input)
    requires Valid(c) && Step(c, e).Ok?
    ensures Step(c, e).value.cfg == c.cfg
    ensures !e.AppIdle? ==> Step(c, e).value.idleStart == c.idleStart
  {
    match e
    case AckOrLoss(ack, loss) =>
      if loss.Some? && OnPacketLoss(c, loss.value).Ok? {
        LossKeepsConfig(c, loss.value);
        if ack.Some? {
          AckKeepsConfig(OnPacketLoss(c, loss.value).value, ack.value);
        }
      } else if ack.Some? {
        AckKeepsConfig(c, ack.value);
      }
    case _ =>
  }

  lemma LossKeepsConfig(c: Controller, loss: LossEvent)
    requires Valid(c) && OnPacketLoss(c, loss).Ok?
    ensures OnPacketLoss(c, loss).value.cfg == c.cfg
    ensures OnPacketLoss(c, loss).value.idleStart == c.idleStart
  {
  }

  lemma AckKeepsConfig(c: Controller, ack: AckEvent)
    requires Valid(c) && OnPacketAcked(c, ack).Ok?
    ensures OnPacketAcked(c, ack).value.cfg == c.cfg
    ensures OnPacketAcked(c, ack).value.idleStart == c.idleStart
  {
    var c1 := RemoveInflightBytes(c, ack.ackedBytes);
    assert c1.cfg == c.cfg && c1.idleStart == c.idleStart;
    match c1.state
    case Hystart =>
    case Steady =>
      assert AckInSteady(c1, ack).cfg == c.cfg;
      assert AckInSteady(c1, ack).idleStart == c.idleStart;
    case FastRecovery =>
      assert AckInRecovery(c1, ack).cfg == c.cfg;
      assert AckInRecovery(c1, ack).idleStart == c.idleStart;
  }

  /** The log of a run extends the log it started from. */
  lemma {:induction false} RunExtendsLog(c: Controller, es: seq<Input>)
    requires Valid(c) && Run(c, es).Ok?
    ensures |Run(c, es).value.log| >= |c.log|
    ensures Run(c, es).value.log[..|c.log|] == c.log
    decreases |es|
  {
    if |es| > 0 {
      var c1 := Step(c, es[0]).value;
      RunExtendsLog(c1, es[1..]);
      var r := Run(c1, es[1..]).value;
      assert r.log[..|c.log|] == r.log[..|c1.log|][..|c.log|];
    }
  }

  /** The app-idle events of a log, in order. */
  function IdleUpdates(log: seq<Event>): seq<bool>
    decreases |log|
  {
    if |log| == 0 then []
    else IdleUpdates(log[..|log| - 1]) +
         (match log[|log| - 1]
          case AppIdleUpdate(b) => [b]
          case Metric(_, _, _, _) => [])
  }

  /** Appending only congestion-metric events adds no app-idle event. */
  lemma {:induction false} IdleUpdatesOfMetrics(a: seq<Event>, ms: seq<Event>)
    requires forall i :: 0 <= i < |ms| ==> ms[i].Metric?
    ensures IdleUpdates(a + ms) == IdleUpdates(a)
    decreases |ms|
  {
    if |ms| > 0 {
      var init := ms[..|ms| - 1];
      assert (a + ms)[..|a + ms| - 1] == a + init;
      IdleUpdatesOfMetrics(a, init);
    } else {
      assert a + ms == a;
    }
  }

  /** A log grown by congestion-metric events only has the same app-idle
      events. */
  lemma MetricsKeepIdleUpdates(c: Controller, r: Controller)
    requires |r.log| >= |c.log| && r.log[..|c.log|] == c.log
    requires forall i :: |c.log| <= i < |r.log| ==> r.log[i].Metric?
    ensures IdleUpdates(r.log) == IdleUpdates(c.log)
  {
    var ms := r.log[|c.log|..];
    assert r.log == c.log + ms;
    IdleUpdatesOfMetrics(c.log, ms);
  }

  /** The idle flags of the setAppIdle calls among the inputs, in order. */
  function IdleCalls(es: seq<Input>): seq<bool>
  {
    if |es| == 0 then []
    else (if es[0].AppIdle? then [es[0].idle] else []) + IdleCalls(es[1..])
  }

  /** Every setAppIdle call logs exactly one app-idle event carrying its flag,
      and no other call logs one. */
  lemma {:induction false} RunIdleUpdates(c: Controller, es: seq<Input>)
    requires Valid(c) && Run(c, es).Ok?
    ensures IdleUpdates(Run(c, es).value.log) == IdleUpdates(c.log) + IdleCalls(es)
    decreases |es|
  {
    if |es| > 0 {
      RunFirst(c, es);
      var c1 := Step(c, es[0]).value;
      RunIdleUpdates(c1, es[1..]);
      ConcatThree(IdleUpdates(c.log), IdleUpdates(c1.log), IdleUpdates(Run(c, es).value.log),
                  if es[0].AppIdle? then [es[0].idle] else [], IdleCalls(es[1..]));
    } else {
      assert IdleUpdates(c.log) + IdleCalls(es) == IdleUpdates(c.log);
    }
  }

  /** A run that succeeds takes its first step and continues from there. */
  lemma RunFirst(c: Controller, es: seq<Input>)
    requires Valid(c) && |es| > 0 && Run(c, es).Ok?
    ensures Step(c, es[0]).Ok?
    ensures Run(c, es) == Run(Step(c, es[0]).value, es[1..])
    ensures IdleUpdates(Step(c, es[0]).value.log) ==
              IdleUpdates(c.log) + (if es[0].AppIdle? then [es[0].idle] else [])
    ensures IdleCalls(es) == (if es[0].AppIdle? then [es[0].idle] else []) + IdleCalls(es[1..])
  {
    StepIdleUpdates(c, es[0]);
  }

  /** The last flag of `bs`, or `d` when there is none. */
  function LastOr(bs: seq<bool>, d: bool): bool
  {
    if |bs| == 0 then d else bs[|bs| - 1]
  }

  /** After a run the application is idle exactly when the last setAppIdle
      call of the run said so; a run without such a call keeps the idle state
      it started from. */
  lemma {:induction false} RunAppLimited(c: Controller, es: seq<Input>)
    requires Valid(c) && Run(c, es).Ok?
    ensures IsAppLimited(Run(c, es).value) == LastOr(IdleCalls(es), IsAppLimited(c))
    decreases |es|
  {
    if |es| > 0 {
      RunFirst(c, es);
      var c1 := Step(c, es[0]).value;
      StepKeepsConfig(c, es[0]);
      RunAppLimited(c1, es[1..]);
      var first := if es[0].AppIdle? then [es[0].idle] else [];
      assert IsAppLimited(c1) == LastOr(first, IsAppLimited(c));
      LastOrConcat(first, IdleCalls(es[1..]), IsAppLimited(c));
    }
  }

  lemma LastOrConcat(x: seq<bool>, y: seq<bool>, d: bool)
    ensures LastOr(x + y, d) == LastOr(y, LastOr(x, d))
  {
    if |y| == 0 {
      assert x + y == x;
    }
  }

  lemma ConcatThree<T>(a: seq<T>, b: seq<T>, c: seq<T>, x: seq<T>, y: seq<T>)
    requires b == a + x && c == b + y
    ensures c == a + (x + y)
  {
  }

  /** One call's contribution to the app-idle events. */
  lemma StepIdleUpdates(c: Controller, e: Input)
    requires Valid(c) && Step(c, e).Ok?
    ensures IdleUpdates(Step(c, e).value.log) ==
              IdleUpdates(c.log) + (if e.AppIdle? then [e.idle] else [])
  {
    var c1 := Step(c, e).value;
    if e.AppIdle? {
      assert c1.log[..|c1.log| - 1] == c.log;
    } else {
      MetricsKeepIdleUpdates(c, c1);
    }
  }
}

=== FILE: cubic_scenarios.dfy ===
/*******************************************************************************
 *  The controller's unit-test scenarios replayed on the model, plus the
 *  general laws they instantiate. Times are microseconds; every ACK and loss
 *  in a scenario happens at the time the scenario names (the tests use the
 *  current clock, which only the cubic clock can observe).
 *******************************************************************************/

module CubicScenarios {
  import opened CubicTypes
  import opened CubicGrowth
  import opened CubicController
  import opened CubicPacing
  import opened CubicRun

  /** One ACK and nothing lost. */
  function Ack(c: Controller, num: nat, bytes: nat, time: nat): Result<Controller>
    requires Valid(c)
  {
    OnPacketAckOrLoss(c, Some(AckEvent(num, bytes, time)), None)
  }

  /** A loss and no ACK. */
  function Loss(c: Controller, loss: LossEvent): Result<Controller>
    requires Valid(c)
  {
    OnPacketAckOrLoss(c, None, Some(loss))
  }

  /** In Hystart, sending `p` and then acking `m` of its bytes moves the
      writable budget by -size + 2m: the ACK both frees its bytes and grows
      the window by them. */
  lemma HystartSendAckWritable(c: Controller, p: Packet, m: nat)
    requires Valid(c) && c.state == Hystart
    requires c.inflight + p.size <= c.cwnd && m <= p.size
    requires c.cwnd + m <= MaxU64
    ensures OnPacketSent(c, p).Ok?
    ensures Ack(OnPacketSent(c, p).value, 0, m, 0).Ok?
    ensures WritableBytes(Ack(OnPacketSent(c, p).value, 0, m, 0).value) + p.size == WritableBytes(c) + 2 * m
  {
    var c1 := OnPacketSent(c, p).value;
    var c2 := Ack(c1, 0, m, 0).value;
    assert c2.cwnd == c.cwnd + m;
    assert c2.inflight == c.inflight + p.size - m;
  }

  /** SentReduceWritable: sending 100 bytes lowers the writable budget of a
      fresh controller by 100. */
  lemma SentReduceWritable()
    ensures var c := NewCubic(DefaultConfig());
            && OnPacketSent(c, Packet(0, 100, 0)).Ok?
            && WritableBytes(OnPacketSent(c, Packet(0, 100, 0)).value) == WritableBytes(c) - 100
  {
    var c := NewCubic(DefaultConfig());
    assert c.cwnd == 12320 && c.inflight == 0;
  }

  /** AckIncreaseWritable: send 100, ack 50 in Hystart, and the writable
      budget is back to the initial window. */
  lemma AckIncreaseWritable()
    ensures var c0 := NewCubic(DefaultConfig());
            var c1 := OnPacketSent(c0, Packet(0, 100, 0));
            && c1.Ok? && WritableBytes(c1.value) == WritableBytes(c0) - 100
            && Ack(c1.value, 0, 50, 0).Ok?
            && WritableBytes(Ack(c1.value, 0, 50, 0).value) == WritableBytes(c0)
  {
    var c0 := NewCubic(DefaultConfig());
    assert c0.cwnd == 12320;
    HystartSendAckWritable(c0, Packet(0, 100, 0), 50);
  }

  /** PersistentCongestion: a persistent-congestion loss of the only packet in
      flight logs RemoveInflight, CubicLoss (window cut to 11088) and
      PersistentCongestion (window 2464, state Hystart); acking half the
      initial window then reaches Steady, and the first Steady ACK rebuilds
      the cubic origin without moving the window. */
  lemma PersistentCongestionScenario(c0: Controller)
    requires c0 == NewCubic(DefaultConfig())
    ensures var loss := AddLostPacket(EmptyLoss(0, 0, true), Packet(0, 1000, 0));
            var c1 := OnPacketSent(c0, Packet(0, 1000, 0));
            c1.Ok? &&
            var c2 := Loss(c1.value, loss);
            c2.Ok? && c2.value.state == Hystart && WritableBytes(c2.value) == 2 * 1232 &&
            var c3 := OnPacketSent(c2.value, Packet(1, 6160, 0));
            c3.Ok? &&
            var c4 := Ack(c3.value, 1, 6160, 0);
            c4.Ok? && c4.value.state == Steady &&
            var c5 := OnPacketSent(c4.value, Packet(2, 3000, 0));
            c5.Ok? &&
            var c6 := Ack(c5.value, 2, 3000, 0);
            && c6.Ok?
            && WritableBytes(c6.value) == WritableBytes(c4.value)
            && c6.value.log == [
                 Metric(RemoveInflight, 0, 12320, Hystart),
                 Metric(CubicLoss, 0, 11088, FastRecovery),
                 Metric(PersistentCongestion, 0, 2464, Hystart),
                 Metric(CongestionPacketAck, 0, c6.value.cwnd, Steady),
                 Metric(ResetTimeToOrigin, 0, c6.value.cwnd, Steady),
                 Metric(ResetLastReductionTime, 0, c6.value.cwnd, Steady),
                 Metric(CubicSteadyCwnd, 0, c6.value.cwnd, Steady),
                 Metric(CwndNoChange, 0, c6.value.cwnd, Steady),
                 Metric(CongestionPacketAck, 0, c6.value.cwnd, Steady)]
  {
    PcLoss(c0);
    var c2 := Loss(OnPacketSent(c0, Packet(0, 1000, 0)).value,
                   AddLostPacket(EmptyLoss(0, 0, true), Packet(0, 1000, 0))).value;
    PcRebuild(c2);
    var c4 := Ack(OnPacketSent(c2, Packet(1, 6160, 0)).value, 1, 6160, 0).value;
    PcSteady(c4);
    var c6 := Ack(OnPacketSent(c4, Packet(2, 3000, 0)).value, 2, 3000, 0).value;
    PcLogConcat(c2.log, c4.log, c6.log, 8624);
  }

  /** The PersistentCongestion log assembled from its three phases. */
  lemma PcLogConcat(l2: seq<Event>, l4: seq<Event>, l6: seq<Event>, w: nat)
    requires l2 == [Metric(RemoveInflight, 0, 12320, Hystart),
                    Metric(CubicLoss, 0, 11088, FastRecovery),
                    Metric(PersistentCongestion, 0, 2464, Hystart)]
    requires l4 == l2 + [Metric(CongestionPacketAck, 0, w, Steady)]
    requires l6 == l4 + [Metric(ResetTimeToOrigin, 0, w, Steady),
                         Metric(ResetLastReductionTime, 0, w, Steady),
                         Metric(CubicSteadyCwnd, 0, w, Steady),
                         Metric(CwndNoChange, 0, w, Steady),
                         Metric(CongestionPacketAck, 0, w, Steady)]
    ensures l6 == [Metric(RemoveInflight, 0, 12320, Hystart),
                   Metric(CubicLoss, 0, 11088, FastRecovery),
                   Metric(PersistentCongestion, 0, 2464, Hystart),
                   Metric(CongestionPacketAck, 0, w, Steady),
                   Metric(ResetTimeToOrigin, 0, w, Steady),
                   Metric(ResetLastReductionTime, 0, w, Steady),
                   Metric(CubicSteadyCwnd, 0, w, Steady),
                   Metric(CwndNoChange, 0, w, Steady),
                   Metric(CongestionPacketAck, 0, w, Steady)]
  {
  }

  /** The controller of the PersistentCongestion scenario between its
      phases: default configuration, nothing in flight, no cubic origin, not
      idle. */
  predicate PcState(c: Controller, state: CubicState, cwnd: nat)
  {
    && Valid(c) && c.cfg == DefaultConfig() && c.state == state && c.cwnd == cwnd
    && c.inflight == 0 && c.lastMaxCwnd.None? && c.lastReductionTime.None? && c.idleStart.None?
  }

  /** PersistentCongestion, the loss: the window drops to the floor, 2 * 1232,
      and ssthresh to half the window before the loss. */
  lemma PcLoss(c0: Controller)
    requires c0 == NewCubic(DefaultConfig())
    ensures var c1 := OnPacketSent(c0, Packet(0, 1000, 0));
            c1.Ok? &&
            var c2 := Loss(c1.value, AddLostPacket(EmptyLoss(0, 0, true), Packet(0, 1000, 0)));
            && c2.Ok? && PcState(c2.value, Hystart, 2464) && c2.value.ssthresh == 6160
            && c2.value.log == [Metric(RemoveInflight, 0, 12320, Hystart),
                                Metric(CubicLoss, 0, 11088, FastRecovery),
                                Metric(PersistentCongestion, 0, 2464, Hystart)]
  {
    assert c0.cwnd == 12320;
    var loss := AddLostPacket(EmptyLoss(0, 0, true), Packet(0, 1000, 0));
    var c1 := OnPacketSent(c0, Packet(0, 1000, 0)).value;
    assert c1.inflight == 1000 && c1.idleStart.None?;
    assert ReducedCwnd(c1) == 11088;
    var c2 := Loss(c1, loss).value;
    assert c2.cwnd == 2464 && c2.ssthresh == 6160 && c2.inflight == 0;
  }

  /** PersistentCongestion, back to Steady: acking half the initial window
      from the floor crosses ssthresh. */
  lemma PcRebuild(c2: Controller)
    requires PcState(c2, Hystart, 2464) && c2.ssthresh == 6160
    ensures var c3 := OnPacketSent(c2, Packet(1, 6160, 0));
            c3.Ok? &&
            var c4 := Ack(c3.value, 1, 6160, 0);
            && c4.Ok? && PcState(c4.value, Steady, 8624)
            && c4.value.log == c2.log + [Metric(CongestionPacketAck, 0, 8624, Steady)]
  {
    var c3 := OnPacketSent(c2, Packet(1, 6160, 0)).value;
    var c4 := Ack(c3, 1, 6160, 0).value;
    assert c4.cwnd == 8624 && c4.state == Steady;
  }

  /** PersistentCongestion, the first Steady ACK: Wmax and the reduction time
      are rebuilt, the curve sits at its origin, and the window stays. */
  lemma PcSteady(c4: Controller)
    requires PcState(c4, Steady, 8624)
    ensures var c5 := OnPacketSent(c4, Packet(2, 3000, 0));
            c5.Ok? &&
            var c6 := Ack(c5.value, 2, 3000, 0);
            && c6.Ok? && c6.value.cwnd == 8624 && c6.value.inflight == 0
            && c6.value.log == c4.log + [
                 Metric(ResetTimeToOrigin, 0, 8624, Steady),
                 Metric(ResetLastReductionTime, 0, 8624, Steady),
                 Metric(CubicSteadyCwnd, 0, 8624, Steady),
                 Metric(CwndNoChange, 0, 8624, Steady),
                 Metric(CongestionPacketAck, 0, 8624, Steady)]
  {
    var c5 := OnPacketSent(c4, Packet(2, 3000, 0)).value;
    var ack := AckEvent(2, 3000, 0);
    var c5a := RemoveInflightBytes(c5, 3000);
    var s := AckInSteady(c5a, ack);
    SteadyFreshStart(c5a, ack);
    assert AckByState(c5a, ack) == Ok(s);
    assert OnPacketAcked(c5, ack) == Ok(CloseAck(s, 8624));
  }

  /** CwndIncreaseAfterReduction, first half: with initial ssthresh 1000 and
      a 200-byte packet size one ACK moves Hystart to Steady at 3000; three
      sends fill the window and one ACK in Steady frees 1000 bytes without
      shrinking it. */
  lemma CwndIncreaseAfterReduction(c0: Controller)
    requires c0 == SetConnectionEmulation(NewCubic(DefaultConfig().(mss := 200, initSsthresh := 1000)), 1)
    ensures var c1 := OnPacketSent(c0, Packet(0, 1000, 0));
            c1.Ok? &&
            var c2 := Ack(c1.value, 0, 1000, 0);
            c2.Ok? && WritableBytes(c2.value) == 3000 && c2.value.state == Steady &&
            var c3 := OnPacketSent(c2.value, Packet(1, 1000, 0));
            c3.Ok? &&
            var c4 := OnPacketSent(c3.value, Packet(2, 1000, 0));
            c4.Ok? &&
            var c5 := OnPacketSent(c4.value, Packet(3, 1000, 0));
            c5.Ok? && WritableBytes(c5.value) == 0 &&
            var c6 := Ack(c5.value, 1, 1000, 0);
            && c6.Ok? && WritableBytes(c6.value) >= 1000
            && Valid(c6.value) && c6.value.cwnd >= 3000 && c6.value.inflight == 2000 && c6.value.state == Steady
  {
    CiarSlowStart(c0);
    CiarFill(Ack(OnPacketSent(c0, Packet(0, 1000, 0)).value, 0, 1000, 0).value);
  }

  /** CwndIncreaseAfterReduction, second half, from the state the first half
      ends in: a loss with one emulated connection keeps at least 2400; an
      ACK of the packet that ends recovery keeps FastRecovery, and an ACK past
      it returns to Steady without shrinking the window. */
  lemma CwndIncreaseAfterReductionRecovery(c6: Controller)
    requires Valid(c6) && c6.cwnd >= 3000 && c6.inflight == 2000 && c6.state == Steady
    ensures var c7 := Loss(c6, AddLostPacket(EmptyLoss(3, 0, false), Packet(2, 1000, 0)));
            c7.Ok? && WritableBytes(c7.value) >= 1400 &&
            var c8 := Ack(c7.value, 3, 1000, 0);
            c8.Ok? && WritableBytes(c8.value) >= 2400 && c8.value.state == FastRecovery &&
            var c9 := OnPacketSent(c8.value, Packet(4, 1000, 0));
            c9.Ok? &&
            var c10 := Ack(c9.value, 4, 1000, 0);
            c10.Ok? && WritableBytes(c10.value) >= 2400 && c10.value.state == Steady
  {
    CiarLoss(c6);
    CiarRecover(Ack(Loss(c6, AddLostPacket(EmptyLoss(3, 0, false), Packet(2, 1000, 0))).value, 3, 1000, 0).value);
  }

  lemma CiarSlowStart(c0: Controller)
    requires c0 == SetConnectionEmulation(NewCubic(DefaultConfig().(mss := 200, initSsthresh := 1000)), 1)
    ensures var c1 := OnPacketSent(c0, Packet(0, 1000, 0));
            c1.Ok? &&
            var c2 := Ack(c1.value, 0, 1000, 0);
            c2.Ok? && Valid(c2.value) && c2.value.cwnd == 3000 && c2.value.inflight == 0 && c2.value.state == Steady
  {
    assert c0.cwnd == 2000 && c0.ssthresh == 1000;
  }

  lemma CiarFill(c2: Controller)
    requires Valid(c2) && c2.cwnd == 3000 && c2.inflight == 0 && c2.state == Steady
    ensures var c3 := OnPacketSent(c2, Packet(1, 1000, 0));
            c3.Ok? &&
            var c4 := OnPacketSent(c3.value, Packet(2, 1000, 0));
            c4.Ok? &&
            var c5 := OnPacketSent(c4.value, Packet(3, 1000, 0));
            c5.Ok? && WritableBytes(c5.value) == 0 &&
            var c6 := Ack(c5.value, 1, 1000, 0);
            c6.Ok? && Valid(c6.value) && c6.value.cwnd >= 3000 && c6.value.inflight == 2000 && c6.value.state == Steady
  {
  }

  lemma CiarLoss(c6: Controller)
    requires Valid(c6) && c6.cwnd >= 3000 && c6.inflight == 2000 && c6.state == Steady
    ensures var c7 := Loss(c6, AddLostPacket(EmptyLoss(3, 0, false), Packet(2, 1000, 0)));
            c7.Ok? && WritableBytes(c7.value) >= 1400 &&
            var c8 := Ack(c7.value, 3, 1000, 0);
            c8.Ok? && Valid(c8.value) && c8.value.cwnd >= 2400 && c8.value.inflight == 0 &&
            c8.value.state == FastRecovery && c8.value.endOfRecovery == Some(3)
  {
    var c7 := Loss(c6, AddLostPacket(EmptyLoss(3, 0, false), Packet(2, 1000, 0))).value;
    assert c7.cwnd >= 4 * c6.cwnd / 5;
    assert c7.cwnd >= 2400 && c7.inflight == 1000;
    var c8 := Ack(c7, 3, 1000, 0).value;
    assert c8.endOfRecovery == c7.endOfRecovery;
  }

  lemma CiarRecover(c8: Controller)
    requires Valid(c8) && c8.cwnd >= 2400 && c8.inflight == 0
    requires c8.state == FastRecovery && c8.endOfRecovery == Some(3)
    ensures var c9 := OnPacketSent(c8, Packet(4, 1000, 0));
            c9.Ok? &&
            var c10 := Ack(c9.value, 4, 1000, 0);
            c10.Ok? && c10.value.cwnd >= 2400 && c10.value.inflight == 0 && c10.value.state == Steady
  {
  }

  /** The cube root the AppIdle scenario needs: K for one packet of 1500 bytes
      to recover, about 1357.2 ms. */
  lemma OnePacketTimeToOrigin()
    ensures TimeToOrigin(1500, 1500) == 1357
  {
    assert Cube(1357) == 2498846293;
    assert Cube(1358) == 2504374712;
    CbrtUnique(2500000000, 1357);
    assert (1500 * 1000000 / 1500) * 2500 == 2500000000;
  }

  /** The two points of the cubic curve the AppIdle scenario reaches, for
      K = 1357 ms: one second (below the origin) and two seconds (above it)
      after the reduction. */
  lemma AppIdleDeltas()
    ensures CubicDelta(1500, 1000, 1357) == -28
    ensures CubicDelta(1500, 2000, 1357) == 159
  {
    assert Cube(-357) == -45499293;
    assert Cube(643) == 265847707;
  }

  /** The controller the AppIdle scenario holds after the recovery-ending
      ACK: Steady at `cwnd`, Wmax 15000 as the origin with K = 1357 ms (the
      value for 1500 bytes, see OnePacketTimeToOrigin), the cubic clock
      started at `lrt`. */
  predicate AppIdleState(c: Controller, cwnd: nat, lrt: nat)
  {
    && Valid(c) && c.cfg == DefaultConfig().(mss := 1500) && c.state == Steady
    && c.cwnd == cwnd && c.inflight == 0
    && c.lastMaxCwnd == Some(15000) && c.originPoint == Some(15000)
    && c.timeToOrigin == 1357 && c.lastReductionTime == Some(lrt)
  }

  /** AppIdle, first phase: a loss at time R in Steady (packet size 1500)
      cuts 15000 to 13500; the recovery-ending ACK one second later sets the
      window from the cubic curve, W(1000 ms) = 15000 + floor(1500 * 0.4 *
      (1000 - K)^3 / 10^9) = 14972, above the reduced window. */
  lemma AppIdle(c0: Controller, R: nat)
    requires c0 == NewCubic(DefaultConfig().(mss := 1500)).(state := Steady)
    ensures var c1 := OnPacketSent(c0, Packet(0, 1000, R));
            c1.Ok? &&
            var c2 := Loss(c1.value, AddLostPacket(EmptyLoss(0, R, false), Packet(0, 1000, R)));
            c2.Ok? && c2.value.cwnd == 13500 && c2.value.lastMaxCwnd == Some(c0.cwnd) &&
            var c3 := OnPacketSent(c2.value, Packet(1, 1000, R));
            c3.Ok? &&
            var c4 := Ack(c3.value, 1, 1000, R + 1_000_000);
            && c4.Ok?
            && c4.value.cwnd == c0.cwnd + CubicDelta(1500, 1000, TimeToOrigin(1500, c0.cwnd - c2.value.cwnd))
            && c4.value.cwnd > c2.value.cwnd
            && AppIdleState(c4.value, 14972, R) && !IsAppLimited(c4.value)
            && IdleUpdates(c4.value.log) == []
  {
    var c2 := AppIdleLoss(c0, R);
    assert c0.cwnd - c2.cwnd == 1500;
    var c3 := OnPacketSent(c2, Packet(1, 1000, R)).value;
    AppIdleExit(c3, R);
    OnePacketTimeToOrigin();
    AppIdleDeltas();
  }

  /** The loss that opens the AppIdle scenario: 15000 is cut to 13500 and
      recovery runs until packet 0 is acknowledged. */
  lemma AppIdleLoss(c0: Controller, R: nat) returns (c2: Controller)
    requires c0 == NewCubic(DefaultConfig().(mss := 1500)).(state := Steady)
    ensures var c1 := OnPacketSent(c0, Packet(0, 1000, R));
            && c1.Ok?
            && Loss(c1.value, AddLostPacket(EmptyLoss(0, R, false), Packet(0, 1000, R))) == Ok(c2)
    ensures && Valid(c2) && c2.cfg == c0.cfg && c2.cwnd == 13500 && c2.inflight == 0
            && c2.lastMaxCwnd == Some(15000) && c2.lastReductionTime == Some(R)
            && c2.state == FastRecovery && c2.endOfRecovery == Some(0) && c2.idleStart.None?
            && IdleUpdates(c2.log) == []
  {
    assert c0.cwnd == 15000 && Valid(c0);
    var c1 := OnPacketSent(c0, Packet(0, 1000, R)).value;
    var loss := AddLostPacket(EmptyLoss(0, R, false), Packet(0, 1000, R));
    c2 := Loss(c1, loss).value;
    assert ReducedCwnd(c1) == 13500;
    assert IdleUpdates(c0.log) == [];
    AckOrLossLog(c1, None, Some(loss));
    MetricsKeepIdleUpdates(c1, c2);
  }

  /** The ACK that ends recovery in the AppIdle scenario, one second after
      the loss: the window is set from the cubic curve at 1000 ms. */
  lemma AppIdleExit(c3: Controller, R: nat)
    requires && Valid(c3) && c3.cfg == DefaultConfig().(mss := 1500) && c3.cwnd == 13500
             && c3.inflight == 1000 && c3.lastMaxCwnd == Some(15000) && c3.lastReductionTime == Some(R)
             && c3.state == FastRecovery && c3.endOfRecovery == Some(0) && c3.idleStart.None?
             && IdleUpdates(c3.log) == []
    ensures var c4 := Ack(c3, 1, 1000, R + 1_000_000);
            && c4.Ok?
            && c4.value.cwnd == 15000 + CubicDelta(1500, 1000, TimeToOrigin(1500, 15000 - 13500))
            && AppIdleState(c4.value, 14972, R) && !IsAppLimited(c4.value)
            && IdleUpdates(c4.value.log) == []
  {
    var ack := AckEvent(1, 1000, R + 1_000_000);
    assert Ack(c3, 1, 1000, R + 1_000_000) == OnPacketAcked(c3, ack);
    AckedWindow(c3, ack);
    var c4 := OnPacketAcked(c3, ack).value;
    OnePacketTimeToOrigin();
    assert c4.timeToOrigin == 1357;
    AppIdleDeltas();
    assert ElapsedMs(c4, R + 1_000_000) == Some(1000);
    assert CubicCwndAt(c4, R + 1_000_000) == 14972;
    AckOrLossLog(c3, Some(ack), None);
    MetricsKeepIdleUpdates(c3, c4);
  }

  /** AppIdle, second phase: while the application is idle an ACK leaves the
      window alone; the idle period is logged. */
  lemma AppIdlePaused(c4: Controller, R: nat)
    requires AppIdleState(c4, 14972, R) && !IsAppLimited(c4) && IdleUpdates(c4.log) == []
    ensures var c5 := SetAppIdle(c4, true, R + 1_100_000);
            IsAppLimited(c5) &&
            var c6 := OnPacketSent(c5, Packet(2, 1000, R));
            c6.Ok? &&
            var c7 := Ack(c6.value, 2, 1000, R + 2_000_000);
            && c7.Ok? && c7.value.cwnd == c4.cwnd
            && AppIdleState(c7.value, 14972, R) && c7.value.idleStart == Some(R + 1_100_000)
            && IdleUpdates(c7.value.log) == [true]
  {
    var c5 := SetAppIdle(c4, true, R + 1_100_000);
    assert IdleUpdates(c5.log) == [true];
    var c6 := OnPacketSent(c5, Packet(2, 1000, R)).value;
    var c7 := Ack(c6, 2, 1000, R + 2_000_000).value;
    var s := AckInSteady(RemoveInflightBytes(c6, 1000), AckEvent(2, 1000, R + 2_000_000));
    assert s == RemoveInflightBytes(c6, 1000);
    AckOrLossLog(c6, Some(AckEvent(2, 1000, R + 2_000_000)), None);
    MetricsKeepIdleUpdates(c6, c7);
  }

  /** AppIdle, last phase: after a second of idle time the reduction time
      moves forward by that second, so the next ACK, three seconds after the
      loss but two on the cubic clock, lands on Wmax + floor(1500 * 0.4 *
      (2000 - K)^3 / 10^9). Each setAppIdle call logged one app-idle event. */
  lemma AppIdleResumed(c7: Controller, R: nat)
    requires AppIdleState(c7, 14972, R) && c7.idleStart == Some(R + 1_100_000)
    requires IdleUpdates(c7.log) == [true]
    ensures var c8 := SetAppIdle(c7, false, R + 2_100_000);
            !IsAppLimited(c8) &&
            var c9 := OnPacketSent(c8, Packet(3, 1000, R));
            c9.Ok? &&
            var c10 := Ack(c9.value, 3, 1000, R + 3_000_000);
            && c10.Ok?
            && c10.value.cwnd > c7.cwnd
            && c10.value.cwnd == 15000 + CubicDelta(1500, 2000, TimeToOrigin(1500, 15000 - 13500))
            && IdleUpdates(c10.value.log) == [true, false]
  {
    var c8 := SetAppIdle(c7, false, R + 2_100_000);
    assert c8.lastReductionTime == Some(R + 1_000_000);
    assert IdleUpdates(c8.log) == [true, false];
    var c9 := OnPacketSent(c8, Packet(3, 1000, R)).value;
    AppIdleLastAck(c9, R + 1_000_000);
    AckOrLossLog(c9, Some(AckEvent(3, 1000, R + 3_000_000)), None);
    MetricsKeepIdleUpdates(c9, Ack(c9, 3, 1000, R + 3_000_000).value);
  }

  /** The ACK that ends the AppIdle scenario: two seconds on the cubic clock
      past a reduction to 13500 from 15000 give 15000 + 159. */
  lemma AppIdleLastAck(c9: Controller, lrt: nat)
    requires Valid(c9) && c9.cfg == DefaultConfig().(mss := 1500) && c9.state == Steady
    requires c9.cwnd == 14972 && c9.inflight == 1000 && c9.idleStart.None?
    requires c9.lastMaxCwnd == Some(15000) && c9.originPoint == Some(15000)
    requires c9.timeToOrigin == 1357 && c9.lastReductionTime == Some(lrt)
    ensures var c10 := Ack(c9, 3, 1000, lrt + 2_000_000);
            && c10.Ok? && c10.value.cwnd == 15159
            && c10.value.cwnd == 15000 + CubicDelta(1500, 2000, TimeToOrigin(1500, 15000 - 13500))
  {
    OnePacketTimeToOrigin();
    AppIdleDeltas();
    var c := RemoveInflightBytes(c9, 1000);
    assert ElapsedMs(c, lrt + 2_000_000) == Some(2000);
    assert CubicCwndAt(c, lrt + 2_000_000) == 15159;
    var s := AckInSteady(c, AckEvent(3, 1000, lrt + 2_000_000));
    assert s.cwnd == 15159;
  }

  /*** Pacing scenarios (srtt and the query time are parameters of the
       pacing queries; the pacer timeout is unset unless marked) ***/

  /** Facts about the controller of a pacing scenario: packet size 1500, a
      1 ms minimal pacing interval, nothing in flight, no timer marked. */
  predicate PacingState(c: Controller, spread: bool)
  {
    && Valid(c) && c.cfg == DefaultConfig().(mss := 1500, spreadAcrossRtt := spread)
    && c.minimalPacingInterval == 1000 && c.inflight == 0 && c.pacerTimeout.None?
    && c.emulatedConnections == 2
  }

  /** One Hystart round of the pacing tests: send a full packet and ack it. */
  function SendAndAck(c: Controller, num: nat): (r: Result<Controller>)
    requires Valid(c)
    ensures r.Ok? ==> Valid(r.value)
  {
    match OnPacketSent(c, Packet(num, c.cfg.mss, 0))
    case Err(e) => Err(e)
    case Ok(c1) => Ack(c1, num, c.cfg.mss, 0)
  }

  /** In Hystart below ssthresh a send-and-ack round grows the window by one
      packet and leaves everything the pacer reads unchanged. */
  lemma SendAndAckGrows(c: Controller, num: nat, spread: bool)
    requires PacingState(c, spread) && c.state == Hystart
    requires c.cwnd + 1500 < c.ssthresh <= MaxU64
    ensures SendAndAck(c, num).Ok?
    ensures var r := SendAndAck(c, num).value;
            PacingState(r, spread) && r.state == Hystart && r.cwnd == c.cwnd + 1500 &&
            r.ssthresh == c.ssthresh
  {
    var c1 := OnPacketSent(c, Packet(num, 1500, 0)).value;
    var r := Ack(c1, num, 1500, 0).value;
    assert r == c.(cwnd := c.cwnd + 1500, log := r.log);
  }

  /** PacingGain in Hystart: after one round the window is 11 packets and the
      gain 2 packs ceil(11 * 2 / (3 ms / 1 ms)) = 8 packets per 1 ms. */
  lemma PacingGainHystart(c0: Controller, now: nat)
    requires c0 == SetMinimalPacingInterval(NewCubic(DefaultConfig().(mss := 1500)), 1000)
    ensures var c2 := SendAndAck(c0, 0);
            && c2.Ok? && c2.value.state == Hystart && c2.value.cwnd == 16500 && PacingState(c2.value, false)
            && PacingInterval(c2.value, 3000) == 1000
            && GetPacingRate(c2.value, 3000, now).0 == 8
  {
    assert PacingState(c0, false) && c0.cwnd == 15000;
    SendAndAckGrows(c0, 0, false);
    var c2 := SendAndAck(c0, 0).value;
    assert GainedWindowQuarters(c2) == 88;
    assert BurstPerInterval(c2, 3000) == 8;
  }

  /** PacingGain in FastRecovery: a loss cuts the window to 9 packets and the
      gain 1.25 gives ceil(9 * 1.25 / 3) = 4 packets per 1 ms. */
  lemma PacingGainRecovery(c2: Controller, now: nat)
    requires PacingState(c2, false) && c2.state == Hystart && c2.cwnd == 16500
    ensures var c3 := OnPacketSent(c2, Packet(1, 1500, 0));
            c3.Ok? &&
            var c4 := Loss(c3.value, AddLostPacket(EmptyLoss(0, 0, false), Packet(1, 1500, 0)));
            && c4.Ok? && c4.value.state == FastRecovery && c4.value.cwnd == 14850
            && PacingState(c4.value, false) && c4.value.lastMaxCwnd == Some(16500)
            && c4.value.endOfRecovery == Some(0) && c4.value.lastReductionTime == Some(0)
            && PacingInterval(c4.value, 3000) == 1000
            && GetPacingRate(c4.value, 3000, now).0 == 4
  {
    var c3 := OnPacketSent(c2, Packet(1, 1500, 0)).value;
    assert ReducedCwnd(c3) == 14850;
    var c4 := Loss(c3, AddLostPacket(EmptyLoss(0, 0, false), Packet(1, 1500, 0))).value;
    assert c4.cwnd == 14850;
    assert GainedWindowQuarters(c4) == 45;
    assert BurstPerInterval(c4, 3000) == 4;
  }

  /** K for the 1650 bytes between 16500 and 14850 with 1500-byte packets,
      about 1401.2 ms. */
  lemma PacingGainTimeToOrigin()
    ensures TimeToOrigin(1500, 1650) == 1401
  {
    assert Cube(1401) == 2749884201;
    assert Cube(1402) == 2755776808;
    CbrtUnique(2750000000, 1401);
    assert (1650 * 1000000 / 1500) * 2500 == 2750000000;
  }

  /** PacingGain back in Steady: the recovery-ending ACK arrives at the
      reduction time, the curve starts at 16500 + floor(1500 * 0.4 *
      (0 - K)^3 / 10^9) = 14850, and gain 1 gives ceil(9 / 3) = 3 packets. */
  lemma PacingGainSteady(c4: Controller, now: nat)
    requires PacingState(c4, false) && c4.state == FastRecovery && c4.cwnd == 14850
    requires c4.lastMaxCwnd == Some(16500) && c4.endOfRecovery == Some(0) && c4.lastReductionTime == Some(0)
    ensures var c5 := OnPacketSent(c4, Packet(2, 1500, 0));
            c5.Ok? &&
            var c6 := Ack(c5.value, 2, 1500, 0);
            && c6.Ok? && c6.value.state == Steady && c6.value.cwnd == 14850
            && PacingInterval(c6.value, 3000) == 1000
            && GetPacingRate(c6.value, 3000, now).0 == 3
  {
    var c5 := OnPacketSent(c4, Packet(2, 1500, 0)).value;
    var ack := AckEvent(2, 1500, 0);
    assert Ack(c5, 2, 1500, 0) == OnPacketAcked(c5, ack);
    AckedWindow(c5, ack);
    var c6 := OnPacketAcked(c5, ack).value;
    PacingGainTimeToOrigin();
    PacingGainExitWindow(c6);
    SteadyRate(c6, now);
  }

  /** The curve at the reduction time with Wmax 16500 and K = 1401 ms:
      16500 + floor(1500 * 0.4 * (-1401)^3 / 10^9) = 16500 - 1650. */
  lemma PacingGainExitWindow(c: Controller)
    requires Valid(c) && c.cfg == DefaultConfig().(mss := 1500) && HasCubicOrigin(c)
    requires c.lastMaxCwnd == Some(16500) && c.lastReductionTime == Some(0) && c.timeToOrigin == 1401
    ensures CubicCwndAt(c, 0) == 14850
  {
    assert ElapsedMs(c, 0) == Some(0) && MinCwnd(c) == 3000;
    assert Cube(-1401) == -2749884201;
    assert CubicDelta(1500, 0, 1401) == -1650;
  }

  /** The pacing half of PacingGain in Steady: 9 packets at gain 1 over three
      1 ms intervals. */
  lemma SteadyRate(c: Controller, now: nat)
    requires PacingState(c, false) && c.state == Steady && c.cwnd == 14850
    ensures PacingInterval(c, 3000) == 1000
    ensures GetPacingRate(c, 3000, now).0 == 3
  {
    assert GainedWindowQuarters(c) == 36;
    assert BurstPerInterval(c, 3000) == 3;
  }

  /** PacingSpread: five rounds grow the window to 15 packets; over a 60 ms
      RTT that is one packet per burst, and spreading stretches the interval
      to 60 ms * 1 / 15 * 2 / 2 = 2 ms, above the 1 ms minimum. */
  lemma PacingSpread(c0: Controller, now: nat)
    requires c0 == SetMinimalPacingInterval(
                     NewCubic(DefaultConfig().(mss := 1500, spreadAcrossRtt := true)), 1000)
    ensures var c1 := SendAndAck(c0, 0);
            c1.Ok? &&
            var c2 := SendAndAck(c1.value, 1);
            c2.Ok? &&
            var c3 := SendAndAck(c2.value, 2);
            c3.Ok? &&
            var c4 := SendAndAck(c3.value, 3);
            c4.Ok? &&
            var c5 := SendAndAck(c4.value, 4);
            && c5.Ok? && c5.value.cwnd == 1500 * 15
            && GetPacingRate(c5.value, 60000, now).0 == 1
            && PacingInterval(c5.value, 60000) == 2000
  {
    SpreadGrowth(c0);
    var c4 := SendAndAck(SendAndAck(SendAndAck(SendAndAck(c0, 0).value, 1).value, 2).value, 3).value;
    SpreadRate(SendAndAck(c4, 4).value, now);
  }

  /** The growth half of PacingSpread: five Hystart rounds of one 1500-byte
      packet each, from 10 packets to 15. */
  lemma SpreadGrowth(c0: Controller)
    requires c0 == SetMinimalPacingInterval(
                     NewCubic(DefaultConfig().(mss := 1500, spreadAcrossRtt := true)), 1000)
    ensures var c1 := SendAndAck(c0, 0);
            c1.Ok? &&
            var c2 := SendAndAck(c1.value, 1);
            c2.Ok? &&
            var c3 := SendAndAck(c2.value, 2);
            c3.Ok? &&
            var c4 := SendAndAck(c3.value, 3);
            c4.Ok? &&
            var c5 := SendAndAck(c4.value, 4);
            && c5.Ok? && c5.value.cwnd == 1500 * 15
            && PacingState(c5.value, true) && c5.value.state == Hystart
  {
    assert PacingState(c0, true) && c0.cwnd == 15000 && c0.state == Hystart && c0.ssthresh == MaxU64;
    SendAndAckGrows(c0, 0, true);
    var c1 := SendAndAck(c0, 0).value;
    SendAndAckGrows(c1, 1, true);
    var c2 := SendAndAck(c1, 1).value;
    SendAndAckGrows(c2, 2, true);
    var c3 := SendAndAck(c2, 2).value;
    SendAndAckGrows(c3, 3, true);
    var c4 := SendAndAck(c3, 3).value;
    SendAndAckGrows(c4, 4, true);
  }

  /** The pacing half of PacingSpread: 15 packets in Hystart over a 60 ms RTT. */
  lemma SpreadRate(c: Controller, now: nat)
    requires PacingState(c, true) && c.state == Hystart && c.cwnd == 22500
    ensures GetPacingRate(c, 60000, now).0 == 1
    ensures PacingInterval(c, 60000) == 2000
  {
    assert GainedWindowQuarters(c) == 120;
    assert BurstPerInterval(c, 60000) == 1;
  }

  /** LatePacingTimer: with a 50 ms RTT and 11 packets of window the rate is
      one packet per 1 ms; a timer marked at t and served at t + 50 ms is
      credited 50 bursts, capped at the maximum burst of 10; a query at
      t + 100 s stays within that cap; and a further query at t + 50 ms gets
      no credit any more. */
  lemma LatePacingTimer(c0: Controller, t: nat)
    requires c0 == NewCubic(DefaultConfig())
    ensures var c2 := SendAndAck(c0, 0);
            c2.Ok? &&
            var without := GetPacingRate(c2.value, 50000, t);
            var with := GetPacingRate(MarkPacerTimeoutScheduled(without.1, t), 50000, t + 50_000);
            var veryLate := GetPacingRate(with.1, 50000, t + 100_000_000);
            var again := GetPacingRate(veryLate.1, 50000, t + 50_000);
            && without.0 == 1
            && with.0 == c0.cfg.maxBurstPackets && with.0 > without.0
            && veryLate.0 <= c0.cfg.maxBurstPackets
            && again.0 == without.0 && again.0 < with.0
  {
    var c1 := OnPacketSent(c0, Packet(0, 1232, 0)).value;
    var c2 := Ack(c1, 0, 1232, 0).value;
    assert c2.cwnd == 13552 && c2.state == Hystart && c2.minimalPacingInterval == 1000;
    assert GainedWindowQuarters(c2) == 88;
    assert BurstPerInterval(c2, 50000) == 1;
    var without := GetPacingRate(c2, 50000, t);
    var m := MarkPacerTimeoutScheduled(without.1, t);
    assert GainedWindowQuarters(m) == 88;
    assert BurstPerInterval(m, 50000) == 1 && PacingInterval(m, 50000) == 1000;
    assert LateBurstCredit(m.pacerTimeout, t + 50_000, 1000, 1) == 50;
    var with := GetPacingRate(m, 50000, t + 50_000);
    var veryLate := GetPacingRate(with.1, 50000, t + 100_000_000);
    CompensationOneShot(with.1, 50000, t + 100_000_000, t + 50_000);
    assert UncompensatedRate(with.1, 50000) == UncompensatedRate(c2, 50000) by {
      assert GainedWindowQuarters(with.1) == 88;
    }
  }

  /** RttSmallerThanInterval: a 1 us RTT is shorter than the minimal pacing
      interval, so the controller cannot pace: interval 0 and the transport's
      write limit as the rate. */
  lemma RttSmallerThanInterval(c0: Controller, now: nat)
    requires c0 == NewCubic(DefaultConfig().(mss := 1500))
    ensures var c2 := SendAndAck(c0, 0);
            && c2.Ok? && !CanBePaced(c2.value, 1)
            && PacingInterval(c2.value, 1) == 0
            && GetPacingRate(c2.value, 1, now).0 == c0.cfg.writeConnectionDataPacketsLimit
  {
    assert PacingState(c0, false) && c0.cwnd == 15000;
    SendAndAckGrows(c0, 0, false);
  }
}

=== FILE: cubic_types.dfy ===
/*******************************************************************************
 *  Data model of the CUBIC congestion controller: configuration, controller
 *  state record, the events handed in by the transport and the telemetry
 *  events the controller emits.
 *******************************************************************************/

/** Types shared by every part of the controller. All quantities are unbounded
    naturals; where the source relies on 64-bit unsigned counters the bound
    `MaxU64` is checked explicitly. Times are microseconds. */
module CubicTypes {

  /** 2^64 - 1: the largest value of the source's `uint64_t` window and
      in-flight counters. */
  const MaxU64: nat := 0xFFFF_FFFF_FFFF_FFFF

  datatype Option<T> = None | Some(value: T)

  /** Programming-contract violations that the source reports by throwing or
      by a failed debug check. */
  datatype CcError =
    | InflightOverflow   // onPacketSent would overflow the 64-bit in-flight counter
    | CwndOverflow       // a Hystart ACK would overflow the 64-bit window
    | InflightUnderflow  // more bytes acked or lost than are in flight
    | NoEvent            // onPacketAckOrLoss called with neither an ACK nor a loss

  datatype Result<T> = Ok(value: T) | Err(error: CcError)

  /** The three states of the Cubic state machine. */
  datatype CubicState = Hystart | Steady | FastRecovery

  /** Tags of the congestion-metric telemetry events. */
  datatype Tag =
    | RemoveInflight
    | CubicLoss
    | PersistentCongestion
    | CongestionPacketAck
    | ResetTimeToOrigin
    | ResetLastReductionTime
    | CubicSteadyCwnd
    | CwndNoChange

  /** One telemetry event: a congestion-metric update carrying the in-flight
      bytes, the window and the state at the moment it is logged, or an
      app-idle update carrying the new idle flag. */
  datatype Event =
    | Metric(tag: Tag, bytesInFlight: nat, currentCwnd: nat, state: CubicState)
    | AppIdleUpdate(idle: bool)

  /** A packet handed to `onPacketSent`: sequence number, encoded size in
      bytes and send time. */
  datatype Packet = Packet(num: nat, size: nat, time: nat)

  /** An acknowledgement: the largest acked packet number, the bytes it acks
      and the time the ACK arrived. */
  datatype AckEvent = AckEvent(largestAcked: nat, ackedBytes: nat, ackTime: nat)

  /** A loss notification. `largestSent` is the transport's largest sent
      packet number at the time of the loss; it becomes the end of recovery. */
  datatype LossEvent =
    LossEvent(lostBytes: nat, largestSent: nat, lossTime: nat, persistentCongestion: bool)

  /** A loss event with no packets in it yet. */
  function EmptyLoss(largestSent: nat, lossTime: nat, persistent: bool): LossEvent
  {
    LossEvent(0, largestSent, lossTime, persistent)
  }

  /** Adds one lost packet to a loss event: its bytes count towards the bytes
      removed from flight. */
  function AddLostPacket(loss: LossEvent, p: Packet): (r: LossEvent)
    ensures r.lostBytes == loss.lostBytes + p.size
    ensures r.(lostBytes := loss.lostBytes) == loss
  {
    loss.(lostBytes := loss.lostBytes + p.size)
  }

  /** Settings fixed when the controller is built. `mss` is the connection's
      UDP send packet length. */
  datatype Config = Config(
    mss: nat,
    initCwndInMss: nat,
    minCwndInMss: nat,
    initSsthresh: nat,
    maxBurstPackets: nat,
    writeConnectionDataPacketsLimit: nat,
    spreadAcrossRtt: bool)

  predicate ValidConfig(cfg: Config)
  {
    && cfg.mss > 0
    && cfg.minCwndInMss > 0
    && cfg.minCwndInMss * cfg.mss <= MaxU64
    && cfg.initCwndInMss * cfg.mss <= MaxU64
  }

  /** The controller's whole state. `idleStart` is set exactly while the
      application is idle; `pacerTimeout` is the one-shot timestamp recorded by
      `markPacerTimeoutScheduled`. */
  datatype Controller = Controller(
    cfg: Config,
    emulatedConnections: nat,
    minimalPacingInterval: nat,
    state: CubicState,
    cwnd: nat,
    inflight: nat,
    ssthresh: nat,
    endOfRecovery: Option<nat>,
    lastMaxCwnd: Option<nat>,
    lastReductionTime: Option<nat>,
    originPoint: Option<nat>,
    timeToOrigin: nat,
    idleStart: Option<nat>,
    pacerTimeout: Option<nat>,
    log: seq<Event>)

  /** The window floor: `minCwndInMss` packets. */
  function MinCwnd(c: Controller): nat
  {
    c.cfg.minCwndInMss * c.cfg.mss
  }

  /** The controller invariant: the window stays between the floor and the
      64-bit ceiling, and FastRecovery always has a recovery end, a reduction
      point at or above the window, and ssthresh equal to the window. */
  predicate Valid(c: Controller)
  {
    && ValidConfig(c.cfg)
    && c.emulatedConnections >= 1
    && c.minimalPacingInterval > 0
    && MinCwnd(c) <= c.cwnd <= MaxU64
    && c.inflight <= MaxU64
    && (c.state == FastRecovery ==>
          && c.endOfRecovery.Some?
          && c.lastMaxCwnd.Some?
          && c.lastReductionTime.Some?
          && c.cwnd <= c.lastMaxCwnd.value
          && c.ssthresh == c.cwnd)
  }

  function Max(a: nat, b: nat): nat
  {
    if a < b then b else a
  }

  /** Bytes the sender may still put in flight: cwnd - inflight, floored at 0. */
  function WritableBytes(c: Controller): (w: nat)
    ensures c.inflight <= c.cwnd ==> w + c.inflight == c.cwnd
    ensures c.cwnd <= c.inflight ==> w == 0
  {
    if c.cwnd > c.inflight then c.cwnd - c.inflight else 0
  }

  predicate IsAppLimited(c: Controller)
  {
    c.idleStart.Some?
  }

  /** The controller as the builder constructs it: Hystart, the initial window
      (never below the floor), nothing in flight, two emulated connections and
      a one-millisecond minimal pacing interval. */
  function NewCubic(cfg: Config): (c: Controller)
    requires ValidConfig(cfg)
    ensures Valid(c)
    ensures c.state == Hystart && c.inflight == 0 && c.log == []
    ensures c.cwnd >= cfg.initCwndInMss * cfg.mss
    ensures c.cwnd == cfg.initCwndInMss * cfg.mss || c.cwnd == MinCwnd(c)
    ensures c.ssthresh == cfg.initSsthresh
  {
    var init := if cfg.initCwndInMss >= cfg.minCwndInMss then cfg.initCwndInMss else cfg.minCwndInMss;
    MulMonotone(cfg.minCwndInMss, init, cfg.mss);
    MulMonotone(cfg.initCwndInMss, init, cfg.mss);
    assert init * cfg.mss <= MaxU64 by {
      if init != cfg.initCwndInMss {
        assert init == cfg.minCwndInMss;
      }
    }
    Controller(cfg, 2, 1000, Hystart, init * cfg.mss, 0, cfg.initSsthresh,
               None, None, None, None, 0, None, None, [])
  }

  lemma MulMonotone(a: nat, b: nat, m: nat)
    requires a <= b
    ensures a * m <= b * m
  {
    assert b * m == a * m + (b - a) * m;
  }

  /** The default settings of a client connection. */
  function DefaultConfig(): (cfg: Config)
    ensures ValidConfig(cfg)
  {
    Config(1232, 10, 2, MaxU64, 10, 5, false)
  }

  /** Sets the number of emulated connections (the source's
      `setConnectionEmulation`); it only changes the reduction factor. */
  function SetConnectionEmulation(c: Controller, n: nat): (r: Controller)
    requires n >= 1
    ensures r.emulatedConnections == n
    ensures r.(emulatedConnections := c.emulatedConnections) == c
    ensures Valid(c) ==> Valid(r)
  {
    c.(emulatedConnections := n)
  }

  function SetMinimalPacingInterval(c: Controller, interval: nat): (r: Controller)
    requires interval > 0
    ensures r.minimalPacingInterval == interval
    ensures r.(minimalPacingInterval := c.minimalPacingInterval) == c
    ensures Valid(c) ==> Valid(r)
  {
    c.(minimalPacingInterval := interval)
  }

  /** Appends a congestion-metric event that reports the controller's current
      in-flight bytes, window and state. */
  function LogMetric(c: Controller, tag: Tag): (r: Controller)
    ensures r.log == c.log + [Metric(tag, c.inflight, c.cwnd, c.state)]
    ensures r.(log := c.log) == c
  {
    c.(log := c.log + [Metric(tag, c.inflight, c.cwnd, c.state)])
  }
}
